=== FILE: README.md ===
# Lotofácil combinations and results: a Dafny model

This project models the data core of a Lotofácil analysis application. Lotofácil is a
Brazilian lottery: a game is 15 distinct numbers drawn from 1..25. There are
3,268,760 possible combinations.

The model covers:

- **Combination import** (`scripts/import-all-games.ts`):
  - One CSV line becomes a stored record (`parseGameLine`).
  - The record carries statistics about its numbers (`calculateGameMetadata`):
    - the sum;
    - the odd/even split;
    - the low/high split;
    - the counts in five bands of width five;
    - the longest run of consecutive numbers.
  - The main loop buffers records and inserts them in batches of 1000. It counts the
    successful and failed batches.
- **Game validation endpoint** (`app/api/all-games/validate/route.ts`):
  - The request's `numbers` go through four checks in a fixed order: it is an array, it
    has fifteen entries, each is an integer in 1..25, and none repeats.
  - The numbers are then sorted and looked up.
  - The answer echoes them with their `01-02-…` text form.
- **Combination listing endpoint** (`app/api/all-games/route.ts`):
  - Query parameters become database filters and a row window.
  - The returned rows are then post-filtered by `mustInclude` and `mustExclude`.
- **Similar-games endpoint** (`app/api/all-games/similar/route.ts`):
  - The request is validated.
  - The answer is built from the database procedure's rows.
- **Official results service** (`lib/services/caixa-api.ts`):
  - `processResult` reshapes one official result.
  - `getHistoricalResults` fetches a contest range one contest at a time.
  - `updateAllHistoricalResults` fetches the missing contests in blocks of ten and
    upserts them block by block.

The model writes out the JavaScript semantics the code relies on:

- `parseInt`, `Number`, `String`, `trim`, `split`, `join` and `padStart` (module
  `JsText`);
- the `%` operator with the sign of the dividend;
- the `||` fallback, which also replaces `0` and `NaN`;
- destructuring defaults, which replace only `undefined`;
- the number conversion done by `<` and `>`.

The outside world is given to the model as data:

- the database's answer to each query;
- the per-batch outcome of each insert or upsert;
- the external results API, as a map from contest to result or as a fetch function;
- the entries of the zip archive.

Modules and files:

- `wrappers.dfy`: `Option`, `Max`, `Min`.
- `jstext.dfy`: JavaScript string and number primitives.
- `json.dfy`: JSON request values.
- `metadata.dfy`: `calculateGameMetadata`.
- `gameline.dfy`: `parseGameLine` and the stored record.
- `importer.dfy`: the batch import loop.
- `validate.dfy`: the validation endpoint.
- `allgames.dfy`: the listing endpoint.
- `similar.dfy`: the similar-games endpoint.
- `caixa.dfy`: the results service.
- `examples.dfy`: worked cases.

## Model

| member | source | states |
|---|---|---|
| Metadata.JsRemainder2 | scripts/import-all-games.ts:45-46 | `n % 2` is 0 exactly for even n, 1 exactly for positive odd n, -1 exactly for negative odd n |
| Metadata.Sum | scripts/import-all-games.ts:44 | `reduce((a, b) => a + b, 0)` is 0 for no numbers and the number itself for one; with `Metadata.SumAppend` this fixes the sum of every list |
| Metadata.Count | scripts/import-all-games.ts:45-55 | a filter count is at most the length; it equals the length iff every number is in the bucket, and is 0 iff none is |
| Metadata.ScanStepKeepsInvariant | scripts/import-all-games.ts:63-69 | one iteration of the run loop keeps its invariant: the current run ends at i and cannot be extended left, and the longest run so far is a real run that no earlier run exceeds; `hasSequence` iff longest >= 3 |
| Metadata.ScanExtends | scripts/import-all-games.ts:63-66 | when `numbers[i] === numbers[i-1] + 1`, growing the current run and taking the maximum keeps the loop invariant |
| Metadata.ScanBreaks | scripts/import-all-games.ts:67-69 | when the step breaks, restarting the current run at 1 keeps the loop invariant |
| Metadata.RunStartsInCurrent | scripts/import-all-games.ts:63-69 | any run that ends where the scan stands starts inside the run the loop is tracking, so `currentSequence` is the longest run ending there |
| Metadata.ScanRuns | scripts/import-all-games.ts:62-70 | the run loop, run to the end of the numbers, leaves the invariant holding for the whole sequence |
| Metadata.DetectRuns | scripts/import-all-games.ts:58-70 | `maxSequence` is at least 1. For a non-empty sequence it is the length of the longest run of +1 steps and is at most the length. The empty sequence gives 1. `hasSequence` iff `maxSequence >= 3` |
| Metadata.CalculateGameMetadata | scripts/import-all-games.ts:43-86 | `sum` is `Sum` of the numbers. Each of odd, even, low, high and the five band fields is the `Count` of the numbers in that bucket. low + high is the length. For non-negative numbers odd + even is the length. For numbers in 1..25 the five bands add up to the length. The run facts above hold, and `hasSequence` iff some three adjacent numbers climb by one |
| Metadata.PartitionLaws | scripts/import-all-games.ts:45-55 | the three counting partitions: low/high always; odd/even for non-negative numbers; the bands for numbers in 1..25 |
| Metadata.CountComplement | scripts/import-all-games.ts:45-48 | two filters that disagree on every element have counts summing to the length |
| Metadata.LowHighPartition | scripts/import-all-games.ts:47-48 | `n <= 12` and `n >= 13` split every sequence of integers |
| Metadata.OddEvenPartition | scripts/import-all-games.ts:45-46 | `n % 2 === 1` and `n % 2 === 0` split every sequence of non-negative integers |
| Metadata.BandsPartition | scripts/import-all-games.ts:51-55 | the five bands 1-5 … 21-25 split every sequence of numbers in 1..25 |
| Metadata.SumBounds | scripts/import-all-games.ts:44 | the sum of k numbers in 1..25 lies between k and 25k |
| Metadata.SumAppend | scripts/import-all-games.ts:44 | the reduce-sum of a concatenation is the sum of the two sums |
| Metadata.CountAppend | scripts/import-all-games.ts:45-55 | the filter count of a concatenation is the sum of the two counts |
| Metadata.RunsFoundMeansThreeInARow | scripts/import-all-games.ts:62-66 | the loop's `hasSequence` holds iff three adjacent numbers step up by one each |
| Metadata.LongestRunUnique | scripts/import-all-games.ts:58-70 | the longest-run length is determined by the numbers alone |
| Metadata.NoStepMeansNoRun | scripts/import-all-games.ts:62-69 | numbers that never step up by one have `maxSequence` 1 and no sequence |
| JsText.NatToString | app/api/all-games/validate/route.ts:89 | `String(n)` is a digit string denoting n, with no leading zero, one character iff n < 10, two for 10..99 |
| JsText.IntToString | app/api/all-games/validate/route.ts:89 | `String(i)` is the digits of the magnitude, preceded by '-' when negative. This is JavaScript's rendering for \|i\| < 10^21, which covers every value the code formats |
| JsText.PadStart | app/api/all-games/validate/route.ts:89 | `padStart` keeps the string as its suffix, fills the front with the fill character and has length max(length, width) |
| JsText.PadZeroKeepsValue | app/api/all-games/validate/route.ts:89 | zero-padding a digit string keeps it a digit string with the same value |
| JsText.Trim | scripts/import-all-games.ts:93 | `trim()` gives a substring with no whitespace at either end; it is empty iff the input is all whitespace, and the identity on whitespace-free text |
| JsText.Split | scripts/import-all-games.ts:96 | `split(sep)` gives at least one piece, no piece holds the separator, and joining the pieces gives back the input |
| JsText.SplitJoin | scripts/import-all-games.ts:96 | splitting undoes joining when no piece contains the separator |
| JsText.SplitWithoutSeparator | lib/services/caixa-api.ts:217 | a string without the separator splits into itself alone |
| JsText.SplitAtFirstSeparator | lib/services/caixa-api.ts:217 | splitting `a + sep + b` with `a` free of `sep` gives `a` followed by the pieces of `b` |
| JsText.JoinCharacters | app/api/all-games/validate/route.ts:89 | a character property held by the separator and every piece holds for every character of the join |
| JsText.ParseInt | scripts/import-all-games.ts:96 | `parseInt(s, 10)`: the empty string is NaN; a digit string is its decimal value; a string starting with anything other than whitespace, a sign or a digit is NaN. Leading whitespace and a sign are read as `JsText.ParseIntSkipsWhitespace` and `JsText.ParseIntOfPadded` state |
| JsText.ParseIntSkipsWhitespace | scripts/import-all-games.ts:96 | whitespace in front of the text does not change what `parseInt` reads, so the piece " 02" of "01 - 02" reads as "02" does |
| JsText.ParseIntOfPadded | scripts/import-all-games.ts:96 | whitespace, an optional '+' or '-', then digits followed by a non-digit or nothing, read as the digits' value, negated after '-' |
| JsText.ReadDigits | scripts/import-all-games.ts:96 | the digit-reading step of `parseInt`: NaN iff the text does not start with a digit, otherwise a non-negative value |
| JsText.ReadDigitsOfConcat | scripts/import-all-games.ts:96 | a run of digits followed by a non-digit reads as the value of the run alone |
| JsText.ParseIntIgnoresTrailing | scripts/import-all-games.ts:96 | `parseInt` reads the leading digits and ignores everything after the first non-digit |
| JsText.ToNumber | app/api/all-games/route.ts:35-36 | `Number(s)`: blank text is 0, a digit string is its value, and NaN only for text whose trimmed form is not all digits. Whitespace-wrapped and signed digit text is read as `JsText.ToNumberOfPadded` states |
| JsText.ToNumberOfPadded | app/api/all-games/route.ts:35-36 | `Number` of whitespace, an optional '+' or '-', digits and whitespace is the digits' value, negated after '-' (" 12" and "+12" are 12) |
| JsText.TrimOfPadded | app/api/all-games/route.ts:35-36 | `trim()` of a text with non-blank ends wrapped in whitespace gives back that text |
| JsText.NumberRoundTrip | app/api/all-games/route.ts:35 | `Number(String(i))` and `parseInt(String(i), 10)` both give back i for every integer of the model, as JavaScript does for \|i\| < 10^21; this decodes `limit=-5` |
| JsText.ParseIntOfNegative | app/api/all-games/validate/route.ts:89 | `parseInt(String(i), 10)` gives back a negative i through the minus sign |
| JsText.NumberOfNegative | app/api/all-games/validate/route.ts:89 | `Number(String(i))` gives back a negative i through the minus sign |
| GameLine.RemoveQuotes | scripts/import-all-games.ts:93 | `replace(/"/g, '')` leaves no quote, keeps every other character with its multiplicity and shortens by the number of quotes. One character is dropped iff it is a quote |
| GameLine.RemoveQuotesAppend | scripts/import-all-games.ts:93 | quotes are removed piece by piece, so the kept characters stay in their original order: together with the one-character case this determines the result |
| GameLine.CleanLine | scripts/import-all-games.ts:93 | the cleaned line holds no quote and is the quote-free line with only surrounding whitespace cut off (`TrimmedFrom`). It neither starts nor ends with whitespace, and a line with no quote and no whitespace is left as it is |
| GameLine.TokenValues | scripts/import-all-games.ts:96 | one `parseInt` value per piece of the split line, in order |
| GameLine.MakeRecord | scripts/import-all-games.ts:102-119 | the record holds the numbers, the cleaned line and exactly the statistics `calculateGameMetadata` gives for them |
| GameLine.ParseGameLine | scripts/import-all-games.ts:91-120 | a record is returned iff the cleaned line is non-empty, has 15 pieces and each parses to 1..25. The record's numbers are the parsed pieces in order, `numbers_str` is the cleaned line, and every statistic is the metadata of those numbers |
| GameLine.RecordOf | scripts/import-all-games.ts:100-119 | fifteen values that passed the range check give a record holding those numbers in order, the cleaned line, and their metadata |
| GameLine.ParsesTo | scripts/import-all-games.ts:93-106 | a non-blank line whose 15 pieces parse to a game is accepted, with exactly those numbers and the cleaned line |
| GameLine.GameNumbersOf | scripts/import-all-games.ts:96-100 | values that are exactly the numbers of a game pass the `isNaN`/range check and give back those numbers |
| GameLine.AcceptedRecordInvariants | scripts/import-all-games.ts:99-118 | every accepted record has these invariants: odd+even = 15, low+high = 15, the bands sum to 15, the sum lies in 15..375, `max_sequence_length` lies in 1..15, and `has_sequence` iff it is >= 3 |
| GameLine.RecordInvariants | scripts/import-all-games.ts:102-118 | the same invariants for the record built from any fifteen numbers in 1..25 |
| GameLine.NoStepRecord | scripts/import-all-games.ts:117-118 | a record whose numbers never step up by one stores `max_sequence_length` 1 and `has_sequence` false |
| Importer.Flush | scripts/import-all-games.ts:203-218 | a flush empties the buffer and increments the batch number. The insert outcome for that number decides whether the batch is added to `totalInserted` or `errors` is incremented |
| Importer.Step | scripts/import-all-games.ts:194-219 | a rejected line changes nothing. An accepted record is counted and buffered; when the buffer reaches the batch size it is sent, record included, as the next batch with the outcome for that batch number, and the buffer is emptied. Earlier inserts are kept |
| Importer.Feed | scripts/import-all-games.ts:194-220 | after all lines, `totalProcessed` has grown by the number of accepted lines, and the inserts made before are still the first ones |
| Importer.Finish | scripts/import-all-games.ts:223-232 | the buffer ends empty. A non-empty buffer is sent as one last batch with the outcome for the next batch number; an empty one sends nothing |
| Importer.FlushAccounting | scripts/import-all-games.ts:203-218 | after a flush the records sent are the earlier ones plus the buffer, and the counters still match the insert history |
| Importer.StepKeepsInvariant | scripts/import-all-games.ts:194-219 | one line keeps the loop invariant. Sent records plus the buffer are the accepted records so far. Every insert is full, the buffer is below the batch size, and the counters match |
| Importer.FullBatchFlushes | scripts/import-all-games.ts:198-219 | the record that brings the buffer to 1000 sends the whole buffer as batch number k + 1 with the sink's outcome, empties the buffer and keeps the loop invariant |
| Importer.FeedKeepsInvariant | scripts/import-all-games.ts:194-220 | the whole line loop keeps that invariant |
| Importer.AcceptedRecords | scripts/import-all-games.ts:195-196 | the accepted records are no more than the lines |
| Importer.RunImport | scripts/import-all-games.ts:151-232 | after the loop and the final partial batch: every accepted record was sent exactly once in file order, and no batch is empty or over 1000. All batches but the last are full, and the batch count is ceil(processed/1000). `totalInserted` is the size of the successful batches, and it plus the failed batches' size is `totalProcessed`. `errors` counts the failed batches |
| Importer.FinishCompletes | scripts/import-all-games.ts:223-232 | the final `if (batch.length > 0)` flush turns the loop invariant into the completed-import property |
| Importer.FinishWithFlush | scripts/import-all-games.ts:224-231 | the same when a partial batch is left to flush |
| Importer.FlushShape | scripts/import-all-games.ts:224-231 | flushing a partial batch keeps the batch shape: a non-empty last batch of at most 1000 |
| Importer.FlushCounted | scripts/import-all-games.ts:224-231 | flushing a partial batch makes the batch count ceil(processed/1000) and keeps the counters exact |
| Importer.CeilAfterFull | scripts/import-all-games.ts:224-231 | k full batches of 1000 and a last one of 1..1000 records make exactly ceil(processed/1000) = k + 1 batches |
| Importer.ParseLines | scripts/import-all-games.ts:194-195 | every line goes through `parseGameLine`, in order |
| Importer.ImportAllGames | scripts/import-all-games.ts:159-232 | a failed table probe ends the import; otherwise the lines of every `games.csv` entry are imported with the completed-import property at batch size 1000 |
| Validate.Dedup | app/api/all-games/validate/route.ts:52 | `[...new Set(s)]` has no repeats, has the same members and is no longer than s |
| Validate.DedupKeepsLengthIffDistinct | app/api/all-games/validate/route.ts:52-53 | the Set has as many members as the array has entries iff no value repeats |
| Validate.Insert | app/api/all-games/validate/route.ts:64 | inserting into a sorted sequence keeps it sorted and adds exactly one occurrence of the value |
| Validate.SortAscending | app/api/all-games/validate/route.ts:64 | `sort((a, b) => a - b)` gives an ascending permutation of the input |
| Validate.SortedDistinctIsStrict | app/api/all-games/validate/route.ts:52-64 | sorting values without repeats gives a strictly increasing sequence |
| Validate.DistinctPermutation | app/api/all-games/validate/route.ts:52-53 | rearranging numbers without repeats leaves no repeats |
| Validate.SortedUnique | app/api/all-games/validate/route.ts:64 | two sorted sequences with the same multiset are equal |
| Validate.TailsPermute | app/api/all-games/validate/route.ts:64 | two rearrangements of each other that start with the same value have rearranged tails |
| Validate.SortIgnoresOrder | app/api/all-games/validate/route.ts:64 | sorting two rearrangements of the same numbers gives the same result |
| Validate.PermutationKeepsGame | app/api/all-games/validate/route.ts:40-64 | rearranging fifteen numbers in 1..25 keeps them fifteen numbers in 1..25 |
| Validate.PadParses | app/api/all-games/validate/route.ts:89 | a number in 1..25 pads to two digits that `parseInt` reads back as the number |
| Validate.Pad2 | app/api/all-games/validate/route.ts:89 | `String(n).padStart(2, '0')` has at least two characters, exactly two below 100; for n >= 0 it is digits that `parseInt` reads back as n |
| Validate.FormatGame | app/api/all-games/validate/route.ts:89 | the text of no numbers is empty; for non-negative numbers, splitting the text on '-' gives back the padded pieces, one per number in order |
| Validate.FormatCharacters | app/api/all-games/validate/route.ts:89 | the text form of a game contains only digits and dashes |
| Validate.FormatIsClean | app/api/all-games/validate/route.ts:89 | the importer's quote removal and trim leave the text form of a game unchanged |
| Validate.FormatTokens | app/api/all-games/validate/route.ts:89 | splitting the text form of a game on '-' gives back the padded pieces |
| Validate.FormatRoundTrip | app/api/all-games/validate/route.ts:89 | the endpoint's `numbers_str` for a game is accepted by `parseGameLine`, giving back the same numbers and the same text |
| Validate.ValidateGame | app/api/all-games/validate/route.ts:18-94 | a non-array answers "must be an array" and a wrong length answers "exactly 15". Every 400 body carries `valid: false` except the non-array one. A 400 is returned iff one of the four checks fails. A 500 is returned iff the checks pass and the lookup fails with something other than "no row". Otherwise `valid` iff a row was found, and `game_id` is present iff the row's id is truthy. The numbers are a strictly increasing game with the request's values, and `numbers_str` is their text form |
| Validate.SortedGame | app/api/all-games/validate/route.ts:52-64 | sorting fifteen distinct numbers in 1..25 gives a strictly increasing game with the same numbers |
| Validate.Answer | app/api/all-games/validate/route.ts:76-94 | the lookup decides the answer: a failed query is a 500; otherwise `valid` iff a row came back, `game_id` iff its id is truthy, and the numbers and their text form are echoed |
| Validate.WellFormedAnswer | app/api/all-games/validate/route.ts:18-94 | a request that passes the four checks is answered from its numbers sorted ascending |
| Validate.RejectionOrder | app/api/all-games/validate/route.ts:39-61 | for fifteen entries, the range error is answered iff some entry is not an integer in 1..25. When all are, the duplicate error is answered iff a value repeats |
| Validate.AnswerMatchesImport | app/api/all-games/validate/route.ts:84-90 | every 200 answer's `numbers_str` parses, on the import side, to the answer's numbers and text |
| Validate.IntegerValuesPermutation | app/api/all-games/validate/route.ts:40 | rearranging entries that pass the range check keeps them passing and keeps the multiset of their integers |
| Validate.WellFormedPermutation | app/api/all-games/validate/route.ts:39-64 | a rearrangement of a request that passes all checks also passes them and sorts to the same numbers |
| Validate.AnswerIgnoresOrder | app/api/all-games/validate/route.ts:39-94 | a well-formed request and any rearrangement of it get the same answer |
| AllGames.NumberOr | app/api/all-games/route.ts:35-36 | `Number(x) \|\| d`: an absent parameter, NaN or 0 gives d; any other number is kept |
| AllGames.Limit | app/api/all-games/route.ts:35 | the limit is never 0 and never above 1000. Absent, NaN or 0 gives 100, and a positive n gives min(n, 1000). A negative n passes through unchanged |
| AllGames.Offset | app/api/all-games/route.ts:36 | the offset is the parameter's number, or 0 when it is absent or NaN |
| AllGames.Window | app/api/all-games/route.ts:70 | `range(offset, offset + limit - 1)` covers exactly the rows offset ≤ k < offset + limit |
| AllGames.NegativeLimitWindow | app/api/all-games/route.ts:35-70 | `limit=-5` is not clamped: the limit is -5 and the window offset..offset-6 holds no row |
| AllGames.NumberList | app/api/all-games/route.ts:28-33 | a list parameter is absent iff missing. When present it has one `Number` per comma-separated piece, so it is never empty |
| AllGames.Bound | app/api/all-games/route.ts:30-31 | a sum bound is set iff the parameter is present and non-empty, and is then its `Number` |
| AllGames.SequenceFlag | app/api/all-games/route.ts:62-63 | the `has_sequence` filter is set iff the parameter is present, and asks for true iff the parameter is exactly "true" |
| AllGames.Plan | app/api/all-games/route.ts:28-70 | each database filter is applied iff its parameter is present (sum bounds: present and non-empty). A list filter is the `Number` list of its parameter, a sum bound is the `Number` of its parameter, and the window is offset..offset+limit-1 |
| AllGames.Filter | app/api/all-games/route.ts:86-94 | `filter` keeps rows in their order, drops exactly the rows the test rejects and keeps each kept row's multiplicity |
| AllGames.PostFilter | app/api/all-games/route.ts:83-95 | the post-filter keeps, in order and with multiplicity, exactly the rows that contain every `mustInclude` number and no `mustExclude` number. NaN entries never match |
| AllGames.FilterIdempotent | app/api/all-games/route.ts:86-94 | filtering twice with the same test is filtering once |
| AllGames.FilterKeepsAll | app/api/all-games/route.ts:86-94 | a test that every row passes keeps the rows unchanged |
| AllGames.PostFilterIdempotent | app/api/all-games/route.ts:83-95 | applying the post-filter to its own output changes nothing |
| AllGames.ListGames | app/api/all-games/route.ts:72-103 | the route answers 500 iff the query fails. Otherwise the games are the post-filtered page, with `filtered` its length, `total` the database count, and offset and limit as decoded |
| Similar.Coerce | app/api/all-games/similar/route.ts:30 | `<`/`>` turn a number into itself, turn `null`, `false`, `[]` and `""` into 0, and turn `undefined` or an object into NaN |
| Similar.EffectiveMinMatches | app/api/all-games/similar/route.ts:20 | the default 11 replaces `undefined` only; any other value, `null` included, is kept |
| Similar.OutOfRange | app/api/all-games/similar/route.ts:30 | a number is rejected iff it is below 1 or above 15; `undefined` and objects compare as NaN and pass; `null` and "" compare as 0 and are rejected |
| Similar.FindSimilar | app/api/all-games/similar/route.ts:17-59 | the answer is "exactly 15 numbers" iff `numbers` is not a 15-entry array. Given 15 entries, the range error is answered iff `minMatches` compares below 1 or above 15. Rows are answered iff the procedure succeeds, echoing the input, with `total_found` the number of rows (0 for null) |
| Similar.EntriesNotChecked | app/api/all-games/similar/route.ts:20-59 | any fifteen entries, whatever they hold, are forwarded with the default 11 and echoed back with the rows |
| Similar.MinMatchesAccepted | app/api/all-games/similar/route.ts:30 | every whole number 1..15 passes and every other whole number is rejected; 2.5, a non-numeric string, an object and `true` pass; `null`, "" and `false` are rejected |
| Caixa.ConvertDate | lib/services/caixa-api.ts:217-222 | the date conversion fails (throws) iff the text has no '/' |
| Caixa.ConvertDateOfParts | lib/services/caixa-api.ts:216-222 | any `D/M/Y` with slash-free parts becomes `Y-MM-DD`, with the day and month padded to two characters |
| Caixa.ConvertDateOfTwoParts | lib/services/caixa-api.ts:217-218 | `D/M` does not throw: it becomes `undefined-MM-DD` |
| Caixa.ConvertDateOfDay | lib/services/caixa-api.ts:216-218 | a `DD/MM/YYYY` date, zero-padded or not, becomes `YYYY-MM-DD`, and the two-character day and month parse back to the values of the day and month digits |
| Caixa.TotalWinners | lib/services/caixa-api.ts:225 | the winner total of no tiers is 0 and of one tier is its count; with `Caixa.TotalWinnersAppend` this fixes the total of every list |
| Caixa.TotalWinnersAppend | lib/services/caixa-api.ts:225 | the winners total over two lists of tiers is the sum of their totals |
| Caixa.TotalWinnersBounds | lib/services/caixa-api.ts:225 | with non-negative tier counts the total is non-negative and at least each tier's count |
| Caixa.ParseAll | lib/services/caixa-api.ts:213-214 | each drawn number is its string's `parseInt`, in order |
| Caixa.ProcessResult | lib/services/caixa-api.ts:211-239 | processing succeeds iff both dates contain '/'. The numbers and the draw order are the parsed strings and the dates are converted. The winner total is the sum over the tiers, and the contest numbers, revenue, accumulated flag and estimated prize are copied |
| Caixa.Fetch | lib/services/caixa-api.ts:84-104 | a contest the API answers with well-formed dates gives its processed result; an unanswered contest gives null |
| Caixa.GetHistoricalResults | lib/services/caixa-api.ts:109-127 | at most one result per contest of first..last, none for an empty range |
| Caixa.HistoricalContents | lib/services/caixa-api.ts:109-127 | the results are exactly the non-null fetches of contests first..last: each comes from a contest in the range, and none is missing |
| Caixa.HistoricalAscending | lib/services/caixa-api.ts:110-126 | when each fetch returns its own contest, the results are strictly ascending and inside the range |
| Caixa.HistoricalSplit | lib/services/caixa-api.ts:109-127 | fetching a range is fetching its two halves one after the other |
| Caixa.Blocks | lib/services/caixa-api.ts:163-165 | the blocks `[c, min(c+9, end)]` are non-empty and at most 10 wide. They start at start, end at end and follow each other without gap, and there are none iff start > end |
| Caixa.BlocksCoverOnce | lib/services/caixa-api.ts:163-165 | every contest of start..end lies in exactly one block, and no other contest in any |
| Caixa.BlocksWithin | lib/services/caixa-api.ts:163-165 | every block lies inside start..end |
| Caixa.RunBlocks | lib/services/caixa-api.ts:164-190 | inserted plus the results dropped by failed upserts is everything fetched. Each error names a non-empty block of the range, and when every upsert succeeds there are no errors |
| Caixa.FailedBlocksReported | lib/services/caixa-api.ts:168-181 | every block that fetched results and whose upsert failed is reported as an error |
| Caixa.ReportedBlocksFailed | lib/services/caixa-api.ts:168-181 | every error names a block of the loop that fetched results and whose upsert failed |
| Caixa.BlocksAscending | lib/services/caixa-api.ts:163-165 | each block of a range ends before every later block starts |
| Caixa.ErrorsInBlockOrder | lib/services/caixa-api.ts:168-181 | over blocks in increasing order, the loop's errors are all insert failures and each ends before the next starts |
| Caixa.BlocksFetchRange | lib/services/caixa-api.ts:163-168 | the blocks together fetch what one pass over start..end fetches |
| Caixa.StartContest | lib/services/caixa-api.ts:155 | with no stored rows the update starts at contest 1, otherwise at the contest right after the latest stored one, so no contest is skipped |
| Caixa.EndContest | lib/services/caixa-api.ts:158 | `maxContest \|\| 3600`: absent, NaN or 0 gives 3600, any other number is kept |
| Caixa.UpdateAllHistoricalResults | lib/services/caixa-api.ts:138-205 | the update fails iff the latest-contest read fails, and then reports that one error and 0 inserted. Otherwise inserted plus the failed blocks' results is what start..end fetches. The errors are exactly the blocks that fetched results and whose upsert failed, each at most 10 wide inside the range, in increasing block order and so each block once. With every upsert succeeding, nothing fails and everything fetched is inserted |
| Examples.FirstThirteenStatistics | scripts/import-all-games.ts:43-86 | 01..13-21-22 has sum 134, `maxSequence` 13 and a sequence |
| Examples.UnsortedLineKeepsItsOrder | scripts/import-all-games.ts:91-120 | a game line with no +1 step in its written order (e.g. 01-03-…-25-02-04) is stored as written with `max_sequence_length` 1 and no sequence |
| Examples.RepeatsAcceptedOnImportOnly | app/api/all-games/validate/route.ts:52-61 | a game with a repeated number is a line the importer accepts but a request the endpoint rejects as duplicated |
| Examples.ThreeBatchesAllSucceed | scripts/import-all-games.ts:198-232 | 2500 accepted lines with every insert succeeding give batches of 1000, 1000 and 500, all 2500 inserted and no errors |
| Examples.SecondBatchFails | scripts/import-all-games.ts:198-232 | the same import with the second insert failing gives 1 error and 1500 inserted |

## Left out

- Database, HTTP and file I/O are left out. Each is given as its answer:
  - the Supabase queries, inserts, upserts and the `find_similar_games` procedure;
  - the `fetch` to the results API;
  - the zip stream and `readline`.
  - The model states which filters are sent, not which rows the database matches.
- Line splitting of the CSV entry (`crlfDelay`) is left out: an entry is given as its lines.
- These parts of the import script have no effect on the counters and are left out:
  - console output, the progress line and the timing and speed figures, which use
    floating point;
  - the final row-count check;
  - `process.exit`.
- The table clear before the import (scripts/import-all-games.ts:174) is left out. Its
  result is never checked, so it has no effect on the counters.
- An exception inside `insertBatch` is folded into the failed outcome. The code catches
  it and returns `false`.
- The `setTimeout` delays between fetches and between blocks are left out.
- A request body that is not JSON, or whose parsing throws, is left out. So is a body
  that is JSON `null` or `undefined`: `const { numbers } = body` throws on it. Each route
  answers such a body with its catch-all 500.
- The JSON body is modelled as `JsValue`. Objects carry no fields, because no route reads
  a field of a nested object.
- `getLatestResult` and the other members of `lib/services/caixa-api.ts` after line 239
  are not part of this model.
- JsText.ParseInt: only decimal integers are modelled. Because the results service calls
  `parseInt` without a radix, a `0x` prefix would be read as hexadecimal there; the model
  reads it as 0. The official strings are two-digit decimals.
- JsText.ToNumber: only decimal integer text is modelled. Fractions, exponents,
  `Infinity` and `0x`/`0o`/`0b` literals give NaN in the model, where JavaScript gives a
  number. So `limit=2.5` or `sumMin=1e2` are decoded differently from the code.
- Similar.Coerce: a non-empty array compares as NaN in the model. JavaScript joins it
  into a string first, so `[5]` compares as 5. Strings inherit the ToNumber limitation.
- Caixa.ProcessResult: contest numbers and winner counts are integers. The two money
  amounts are reals copied through unchanged.
- AllGames.Plan: repeated query keys and percent-decoding are left out. `Params` maps
  each key to the value `searchParams.get` returns for it.
- JsText.IntToString: JavaScript numbers are doubles, while the model uses unbounded
  integers. For \|i\| >= 10^21 `String(i)` uses exponent form ("1e+21"), so
  `parseInt(String(1e21), 10)` is 1, and integers above 2^53 are not exact. The code only
  formats numbers of a game and query values, far below these bounds.
- Json.JsValue: JSON numbers are exact reals in the model, where JavaScript rounds them to
  doubles. A literal such as 1.0000000000000001 arrives as the integer 1 and passes
  `Number.isInteger`; the model rejects it as a fraction.
- Caixa.Blocks: contests are integers. A fractional `maxContest` is not modelled.

## Notable behaviour of the code

- **Example sum.** The line 01..13-21-22 sums to 134 and has a longest run of 13
  (`Examples.FirstThirteenStatistics`).
- **Unsorted lines.** `parseGameLine` does not sort. The statistics of a line such as
  01-03-…-25-02-04 are taken in its written order, so its longest run is 1
  (`Examples.UnsortedLineKeepsItsOrder`).
- **Table clear.** The import clears the table before it starts and does not check the
  delete's result.
- **Date conversion.** A date with no '/' makes `padStart` throw on `undefined`. The
  results service catches this and treats the contest as not found. A date with one '/'
  does not throw: it is converted with the year printed as "undefined"
  (`Caixa.ConvertDateOfTwoParts`).
- **Similar-games `minMatches`.** Values that compare as NaN pass the range check and are
  forwarded. Examples are a non-numeric string or an object (`Similar.MinMatchesAccepted`).
- **Listing `limit`.** A negative limit is not clamped: `limit=-5` gives the window
  offset..offset-6, an empty range with its end before its start
  (`AllGames.NegativeLimitWindow`).
- **Empty list parameters.** `mustInclude=` (empty) is split into one piece, `Number("")`
  is 0, and the list is `[0]`. So the post-filter keeps no rows for `mustInclude=` and
  every row for `mustExclude=`.

=== FILE: allgames.dfy ===
/** `GET /api/all-games` (app/api/all-games/route.ts): query parameters are decoded into
    database filters and a row window; the rows the database returns are then narrowed by
    the `mustInclude` / `mustExclude` number lists. */
module AllGames {
  import opened Wrappers
  import opened JsText

  const DefaultLimit: int := 100
  const MaxLimit: int := 1000

  /** The query string; a key maps to the value `searchParams.get` answers for it. */
  type Params = map<string, string>

  function Get(p: Params, key: string): Option<string> {
    if key in p then Some(p[key]) else None
  }

  /** `Number(x) || d`: zero and NaN are falsy and fall back to `d`. */
  function NumberOr(v: Option<string>, d: int): (n: int)
    ensures v.None? ==> n == d
    ensures v.Some? && ToNumber(v.value).Int? && ToNumber(v.value).i != 0 ==> n == ToNumber(v.value).i
    ensures v.Some? && (ToNumber(v.value) == NaN || ToNumber(v.value) == Int(0)) ==> n == d
  {
    // Number(null) is 0, so an absent parameter falls back as well
    if v.None? then d
    else match ToNumber(v.value)
      case Int(i) => if i != 0 then i else d
      case NaN => d
  }

  /** `Math.min(Number(limit) || 100, 1000)` */
  function Limit(p: Params): (l: int)
    ensures l <= MaxLimit && l != 0
    ensures "limit" !in p ==> l == DefaultLimit
    ensures "limit" in p && (ToNumber(p["limit"]) == NaN || ToNumber(p["limit"]) == Int(0)) ==> l == DefaultLimit
    ensures "limit" in p && ToNumber(p["limit"]).Int? && 0 < ToNumber(p["limit"]).i ==>
      l == Min(ToNumber(p["limit"]).i, MaxLimit)
    ensures "limit" in p && ToNumber(p["limit"]).Int? && ToNumber(p["limit"]).i < 0 ==>
      l == ToNumber(p["limit"]).i
  {
    Min(NumberOr(Get(p, "limit"), DefaultLimit), MaxLimit)
  }

  /** `Number(offset) || 0` */
  function Offset(p: Params): (o: int)
    ensures "offset" !in p ==> o == 0
    ensures "offset" in p && ToNumber(p["offset"]) == NaN ==> o == 0
    ensures "offset" in p && ToNumber(p["offset"]).Int? ==> o == ToNumber(p["offset"]).i
  {
    NumberOr(Get(p, "offset"), 0)
  }

  /** `.range(from, to)`: rows `from..to`, both ends included. */
  datatype RowRange = RowRange(from: int, to: int)

  predicate Covers(r: RowRange, k: int) {
    r.from <= k <= r.to
  }

  /** `query.range(offset, offset + limit - 1)` */
  function Window(offset: int, limit: int): (r: RowRange)
    ensures forall k :: Covers(r, k) <==> offset <= k < offset + limit
  {
    RowRange(offset, offset + limit - 1)
  }

  /** A negative limit is not clamped: `limit=-5` asks for the rows offset..offset-6,
      which is no row at all. */
  lemma NegativeLimitWindow(p: Params)
    requires "limit" in p && p["limit"] == "-5"
    ensures Limit(p) == -5
    ensures Plan(p).window == RowRange(Offset(p), Offset(p) - 6)
    ensures forall k :: !Covers(Plan(p).window, k)
  {
    NumberRoundTrip(-5);
    assert IntToString(-5) == "-5";
  }

  /** `get(key)?.split(',').map(Number)`: absent stays absent; present is never empty,
      because splitting any string gives at least one piece. */
  function NumberList(v: Option<string>): (l: Option<seq<NumVal>>)
    ensures l.Some? <==> v.Some?
    ensures l.Some? ==> |l.value| == |Split(v.value, ',')| >= 1
    ensures l.Some? ==> forall i :: 0 <= i < |l.value| ==> l.value[i] == ToNumber(Split(v.value, ',')[i])
  {
    if v.None? then None
    else
      var pieces := Split(v.value, ',');
      Some(seq(|pieces|, i requires 0 <= i < |pieces| => ToNumber(pieces[i])))
  }

  /** `get(key) ? Number(get(key)) : null`: the empty string is falsy. */
  function Bound(v: Option<string>): (b: Option<NumVal>)
    ensures b.Some? <==> v.Some? && v.value != ""
    ensures b.Some? ==> b.value == ToNumber(v.value)
  {
    if v.None? || v.value == "" then None else Some(ToNumber(v.value))
  }

  /** `hasSequence === 'true'` when the parameter is present. */
  function SequenceFlag(v: Option<string>): (f: Option<bool>)
    ensures f.Some? <==> v.Some?
    ensures f == Some(true) <==> v == Some("true")
  {
    if v.None? then None else Some(v.value == "true")
  }

  /** The database side of the request: the filters applied with `.in`, `.gte`, `.lte`,
      `.eq` and `.range`. A list filter is applied only when present and non-empty. */
  datatype QueryPlan = QueryPlan(
    oddIn: Option<seq<NumVal>>,
    evenIn: Option<seq<NumVal>>,
    sumAtLeast: Option<NumVal>,
    sumAtMost: Option<NumVal>,
    hasSequence: Option<bool>,
    window: RowRange)

  function NonEmpty(l: Option<seq<NumVal>>): Option<seq<NumVal>> {
    if l.Some? && |l.value| > 0 then l else None
  }

  function Plan(p: Params): (q: QueryPlan)
    ensures q.oddIn.Some? <==> "oddCount" in p
    ensures q.evenIn.Some? <==> "evenCount" in p
    ensures q.sumAtLeast.Some? <==> "sumMin" in p && p["sumMin"] != ""
    ensures q.sumAtMost.Some? <==> "sumMax" in p && p["sumMax"] != ""
    ensures q.hasSequence.Some? <==> "hasSequence" in p
    ensures q.hasSequence == Some(true) <==> "hasSequence" in p && p["hasSequence"] == "true"
    ensures forall k :: Covers(q.window, k) <==> Offset(p) <= k < Offset(p) + Limit(p)
    ensures q.oddIn.Some? ==> q.oddIn == NumberList(Get(p, "oddCount"))
    ensures q.evenIn.Some? ==> q.evenIn == NumberList(Get(p, "evenCount"))
    ensures q.sumAtLeast.Some? ==> q.sumAtLeast == Some(ToNumber(p["sumMin"]))
    ensures q.sumAtMost.Some? ==> q.sumAtMost == Some(ToNumber(p["sumMax"]))
  {
    QueryPlan(
      NonEmpty(NumberList(Get(p, "oddCount"))),
      NonEmpty(NumberList(Get(p, "evenCount"))),
      Bound(Get(p, "sumMin")),
      Bound(Get(p, "sumMax")),
      SequenceFlag(Get(p, "hasSequence")),
      Window(Offset(p), Limit(p)))
  }

  /** The columns the route selects from `all_possible_games`. */
  datatype GameRow = GameRow(
    id: int, numbers: seq<int>, numbersStr: string,
    sumNumbers: int, oddCount: int, evenCount: int, hasSequence: bool)

  /** `numbers.includes(v)`: NaN is never included. */
  predicate Includes(numbers: seq<int>, v: NumVal) {
    v.Int? && v.i in numbers
  }

  predicate ContainsAll(g: GameRow, required: seq<NumVal>) {
    forall i :: 0 <= i < |required| ==> Includes(g.numbers, required[i])
  }

  predicate ContainsNone(g: GameRow, excluded: seq<NumVal>) {
    forall i :: 0 <= i < |excluded| ==> !Includes(g.numbers, excluded[i])
  }

  /** `a` is `b` with some entries dropped and the rest in their original order. */
  predicate SubsequenceOf(a: seq<GameRow>, b: seq<GameRow>)
    decreases |b|
  {
    if |a| == 0 then true
    else if |b| == 0 then false
    else if a[0] == b[0] then SubsequenceOf(a[1..], b[1..])
    else SubsequenceOf(a, b[1..])
  }

  lemma {:induction false} SubsequenceOfSelf(a: seq<GameRow>)
    ensures SubsequenceOf(a, a)
    decreases |a|
  {
    if |a| > 0 {
      SubsequenceOfSelf(a[1..]);
    }
  }

  /** `rows.filter(keep)` */
  function Filter(rows: seq<GameRow>, keep: GameRow -> bool): (r: seq<GameRow>)
    ensures SubsequenceOf(r, rows)
    ensures forall g :: multiset(r)[g] == (if keep(g) then multiset(rows)[g] else 0)
    decreases |rows|
  {
    if |rows| == 0 then []
    else
      var rest := Filter(rows[1..], keep);
      assert rows == [rows[0]] + rows[1..];
      if keep(rows[0]) then
        assert ([rows[0]] + rest)[1..] == rest;
        [rows[0]] + rest
      else
        SubsequenceSkip(rest, rows);
        rest
  }

  lemma SubsequenceSkip(r: seq<GameRow>, rows: seq<GameRow>)
    requires |rows| > 0 && SubsequenceOf(r, rows[1..])
    ensures SubsequenceOf(r, rows)
  {
    if |r| > 0 && r[0] == rows[0] {
      SubsequenceTail(r, rows[1..]);
    }
  }

  /** Dropping the head of a subsequence keeps it a subsequence. */
  lemma {:induction false} SubsequenceTail(r: seq<GameRow>, rows: seq<GameRow>)
    requires |r| > 0 && SubsequenceOf(r, rows)
    ensures SubsequenceOf(r[1..], rows)
    decreases |rows|
  {
    assert |rows| > 0;
    if r[0] == rows[0] {
      if |r| > 1 && r[1] != rows[0] {
        assert SubsequenceOf(r[1..], rows[1..]);
      } else if |r| > 1 {
        SubsequenceTail(r[1..], rows[1..]);
        assert SubsequenceOf(r[2..], rows[1..]);
      }
    } else {
      SubsequenceTail(r, rows[1..]);
      if |r| > 1 && r[1] == rows[0] {
        SubsequenceTail(r[1..], rows[1..]);
      }
    }
  }

  /** `every(num => game.numbers.includes(num))` over `mustInclude`, then
      `!some(num => game.numbers.includes(num))` over `mustExclude`; an absent list keeps
      every row. */
  function PostFilter(rows: seq<GameRow>, mustInclude: Option<seq<NumVal>>, mustExclude: Option<seq<NumVal>>)
    : (r: seq<GameRow>)
    ensures SubsequenceOf(r, rows)
    ensures forall g :: multiset(r)[g] == (if Kept(g, mustInclude, mustExclude) then multiset(rows)[g] else 0)
    ensures forall g :: g in r <==> g in rows && Kept(g, mustInclude, mustExclude)
  {
    var included := if mustInclude.Some? && |mustInclude.value| > 0
      then Filter(rows, g => ContainsAll(g, mustInclude.value)) else rows;
    var excluded := if mustExclude.Some? && |mustExclude.value| > 0
      then Filter(included, g => ContainsNone(g, mustExclude.value)) else included;
    SubsequenceOfSelf(rows);
    SubsequenceOfSelf(included);
    SubsequenceTransitive(excluded, included, rows);
    excluded
  }

  /** A row survives the post-filter when it holds every required number and none of the
      excluded ones. */
  predicate Kept(g: GameRow, mustInclude: Option<seq<NumVal>>, mustExclude: Option<seq<NumVal>>) {
    && (mustInclude.None? || ContainsAll(g, mustInclude.value))
    && (mustExclude.None? || ContainsNone(g, mustExclude.value))
  }

  lemma {:induction false} SubsequenceTransitive(a: seq<GameRow>, b: seq<GameRow>, c: seq<GameRow>)
    requires SubsequenceOf(a, b) && SubsequenceOf(b, c)
    ensures SubsequenceOf(a, c)
    decreases |c|
  {
    if |a| > 0 {
      assert |b| > 0 && |c| > 0;
      if b[0] == c[0] {
        if a[0] == b[0] {
          SubsequenceTransitive(a[1..], b[1..], c[1..]);
        } else {
          SubsequenceTransitive(a, b[1..], c[1..]);
        }
      } else {
        SubsequenceTransitive(a, b, c[1..]);
        SubsequenceSkip(a, c);
      }
    }
  }

  /** Filtering twice with the same test keeps the same rows. */
  lemma {:induction false} FilterIdempotent(rows: seq<GameRow>, keep: GameRow -> bool)
    ensures Filter(Filter(rows, keep), keep) == Filter(rows, keep)
    decreases |rows|
  {
    if |rows| > 0 {
      FilterIdempotent(rows[1..], keep);
      var rest := Filter(rows[1..], keep);
      if keep(rows[0]) {
        assert ([rows[0]] + rest)[1..] == rest;
      }
    }
  }

  /** Filtering by the test that rejects nothing keeps every row. */
  lemma {:induction false} FilterKeepsAll(rows: seq<GameRow>, keep: GameRow -> bool)
    requires forall i :: 0 <= i < |rows| ==> keep(rows[i])
    ensures Filter(rows, keep) == rows
    decreases |rows|
  {
    if |rows| > 0 {
      FilterKeepsAll(rows[1..], keep);
      assert keep(rows[0]);
      assert Filter(rows, keep) == [rows[0]] + Filter(rows[1..], keep);
      assert rows == [rows[0]] + rows[1..];
    }
  }

  /** The post-filter applied to its own output changes nothing: every row it returns
      already satisfies both lists. */
  lemma PostFilterIdempotent(rows: seq<GameRow>, mustInclude: Option<seq<NumVal>>, mustExclude: Option<seq<NumVal>>)
    ensures PostFilter(PostFilter(rows, mustInclude, mustExclude), mustInclude, mustExclude)
      == PostFilter(rows, mustInclude, mustExclude)
  {
    var r := PostFilter(rows, mustInclude, mustExclude);
    forall i | 0 <= i < |r| ensures Kept(r[i], mustInclude, mustExclude) {
      assert r[i] in r;
    }
    if mustInclude.Some? && |mustInclude.value| > 0 {
      FilterKeepsAll(r, g => ContainsAll(g, mustInclude.value));
    }
    if mustExclude.Some? && |mustExclude.value| > 0 {
      FilterKeepsAll(r, g => ContainsNone(g, mustExclude.value));
    }
  }

  /** What the query answers: an error, or the page of rows (possibly null) and the exact
      count of matching rows. */
  datatype DbAnswer = DbError | DbRows(data: Option<seq<GameRow>>, count: Option<int>)

  datatype ListResponse =
    | ListFailed
    | Listing(games: seq<GameRow>, total: Option<int>, filtered: nat, offset: int, limit: int)

  /** The whole route, given the database's answer to `Plan(p)`. */
  function ListGames(p: Params, db: DbAnswer): (r: ListResponse)
    ensures db.DbError? <==> r.ListFailed?
    ensures r.Listing? ==> r.filtered == |r.games| && r.limit <= MaxLimit && r.total == db.count
    ensures r.Listing? ==> r.offset == Offset(p) && r.limit == Limit(p)
    ensures r.Listing? && db.data.None? ==> r.games == []
    ensures r.Listing? && db.data.Some? ==> SubsequenceOf(r.games, db.data.value)
    ensures r.Listing? && db.data.Some? ==> forall g :: g in r.games <==>
      g in db.data.value && Kept(g, NumberList(Get(p, "mustInclude")), NumberList(Get(p, "mustExclude")))
  {
    match db
    case DbError => ListFailed
    case DbRows(data, count) =>
      var rows := if data.Some? then data.value else [];
      var games := PostFilter(rows, NumberList(Get(p, "mustInclude")), NumberList(Get(p, "mustExclude")));
      Listing(games, count, |games|, Offset(p), Limit(p))
  }
}

=== FILE: caixa.dfy ===
/** The historical-results service (lib/services/caixa-api.ts): one official result is
    reshaped for the `lottery_results` table, contests are fetched one by one over a range,
    and the missing contests are fetched in blocks of ten and upserted block by block.
    The external API and the database are given as their answers. */
module Caixa {
  import opened Wrappers
  import opened JsText

  const BlockSize: int := 10
  const FirstContest: int := 1
  const DefaultEndContest: int := 3600

  /** One prize tier of a result; only the winner count is used. */
  datatype Prize = Prize(ganhadores: int)

  /** The fields of an official result that `processResult` reads. */
  datatype CaixaResult = CaixaResult(
    concurso: int,
    data: string,
    dezenasOrdemSorteio: seq<string>,
    dezenas: seq<string>,
    premiacoes: seq<Prize>,
    acumulou: bool,
    proximoConcurso: int,
    dataProximoConcurso: string,
    valorArrecadado: real,
    valorEstimadoProximoConcurso: real)

  datatype ProcessedResult = ProcessedResult(
    contestNumber: int,
    drawDate: string,
    numbers: seq<NumVal>,
    drawOrder: seq<NumVal>,
    totalWinners: int,
    totalRevenue: real,
    accumulated: bool,
    nextContest: int,
    nextContestDate: string,
    estimatedNextPrize: real)

  /** `const [day, month, year] = s.split('/')` followed by
      `${year}-${month.padStart(2, '0')}-${day.padStart(2, '0')}`. With a single part,
      `month` is undefined and `padStart` throws (None); with two parts the year prints as
      "undefined"; parts after the third are ignored. */
  function ConvertDate(s: string): (r: Option<string>)
    ensures r.None? <==> '/' !in s
  {
    var parts := Split(s, '/');
    if |parts| < 2 then
      SplitWithoutSeparator(s, '/');
      None
    else
      var year := if |parts| >= 3 then parts[2] else "undefined";
      Some(year + "-" + PadStart(parts[1], 2, '0') + "-" + PadStart(parts[0], 2, '0'))
  }

  /** Three slash-free parts `D/M/Y` become `Y-MM-DD`: the day and month are padded to two
      characters, whatever they hold. */
  lemma ConvertDateOfParts(d: string, m: string, y: string)
    requires '/' !in d && '/' !in m && '/' !in y
    ensures ConvertDate(d + "/" + m + "/" + y) == Some(y + "-" + PadStart(m, 2, '0') + "-" + PadStart(d, 2, '0'))
  {
    SplitWithoutSeparator(y, '/');
    SplitAtFirstSeparator(m, '/', y);
    assert d + "/" + m + "/" + y == d + ['/'] + (m + ['/'] + y);
    SplitAtFirstSeparator(d, '/', m + ['/'] + y);
  }

  /** Two slash-free parts `D/M` do not throw: the missing year prints as "undefined". */
  lemma ConvertDateOfTwoParts(d: string, m: string)
    requires '/' !in d && '/' !in m
    ensures ConvertDate(d + "/" + m) == Some("undefined" + "-" + PadStart(m, 2, '0') + "-" + PadStart(d, 2, '0'))
  {
    var s := d + "/" + m;
    assert s == d + ['/'] + m;
    SplitWithoutSeparator(m, '/');
    SplitAtFirstSeparator(d, '/', m);
    assert Split(s, '/') == [d, m];
  }

  /** An official `DD/MM/YYYY` date (or one with unpadded day and month) becomes
      `YYYY-MM-DD`, and the two-character day and month read back as the same numbers. */
  lemma ConvertDateOfDay(d: string, m: string, year: string)
    requires AllDigits(d) && AllDigits(m) && 1 <= |d| <= 2 && 1 <= |m| <= 2 && '/' !in year
    ensures ConvertDate(d + "/" + m + "/" + year)
      == Some(year + "-" + PadStart(m, 2, '0') + "-" + PadStart(d, 2, '0'))
    ensures |PadStart(m, 2, '0')| == 2 && ParseInt(PadStart(m, 2, '0')) == Int(DecimalValue(m))
    ensures |PadStart(d, 2, '0')| == 2 && ParseInt(PadStart(d, 2, '0')) == Int(DecimalValue(d))
  {
    NoSlash(d);
    NoSlash(m);
    ConvertDateOfParts(d, m, year);
    PadZeroKeepsValue(m, 2);
    PadZeroKeepsValue(d, 2);
  }

  lemma NoSlash(s: string)
    requires AllDigits(s)
    ensures '/' !in s
  {
    forall k | 0 <= k < |s| ensures s[k] != '/' {
      assert IsDigit(s[k]);
    }
  }

  /** `premiacoes.reduce((sum, p) => sum + p.ganhadores, 0)` */
  function TotalWinners(ps: seq<Prize>): (n: int)
    ensures ps == [] ==> n == 0
    ensures |ps| == 1 ==> n == ps[0].ganhadores
  {
    if |ps| == 0 then 0 else TotalWinners(ps[..|ps| - 1]) + ps[|ps| - 1].ganhadores
  }

  /** Winners add up across tiers, so the total is the same whichever way the list is cut. */
  lemma {:induction false} TotalWinnersAppend(a: seq<Prize>, b: seq<Prize>)
    ensures TotalWinners(a + b) == TotalWinners(a) + TotalWinners(b)
    decreases |b|
  {
    if |b| > 0 {
      assert (a + b)[..|a + b| - 1] == a + b[..|b| - 1];
      TotalWinnersAppend(a, b[..|b| - 1]);
    } else {
      assert a + b == a;
    }
  }

  /** With no negative counts the total is at least every single tier's count. */
  lemma {:induction false} TotalWinnersBounds(ps: seq<Prize>)
    requires forall i :: 0 <= i < |ps| ==> ps[i].ganhadores >= 0
    ensures TotalWinners(ps) >= 0
    ensures forall i :: 0 <= i < |ps| ==> ps[i].ganhadores <= TotalWinners(ps)
  {
    if |ps| > 0 {
      TotalWinnersBounds(ps[..|ps| - 1]);
    }
  }

  /** `strings.map(num => parseInt(num))` */
  function ParseAll(strings: seq<string>): (vs: seq<NumVal>)
    ensures |vs| == |strings|
    ensures forall i :: 0 <= i < |strings| ==> vs[i] == ParseInt(strings[i])
  {
    seq(|strings|, i requires 0 <= i < |strings| => ParseInt(strings[i]))
  }

  /** `processResult(data)`; None when a date conversion throws. */
  function ProcessResult(data: CaixaResult): (r: Option<ProcessedResult>)
    ensures r.Some? <==> '/' in data.data && '/' in data.dataProximoConcurso
    ensures r.Some? ==> |r.value.numbers| == |data.dezenas| && |r.value.drawOrder| == |data.dezenasOrdemSorteio|
    ensures r.Some? ==> forall i :: 0 <= i < |data.dezenas| ==> r.value.numbers[i] == ParseInt(data.dezenas[i])
    ensures r.Some? ==> forall i :: 0 <= i < |data.dezenasOrdemSorteio| ==>
      r.value.drawOrder[i] == ParseInt(data.dezenasOrdemSorteio[i])
    ensures r.Some? ==> Some(r.value.drawDate) == ConvertDate(data.data)
    ensures r.Some? ==> Some(r.value.nextContestDate) == ConvertDate(data.dataProximoConcurso)
    ensures r.Some? ==> r.value.contestNumber == data.concurso && r.value.nextContest == data.proximoConcurso
    ensures r.Some? ==> r.value.totalWinners == TotalWinners(data.premiacoes)
    ensures r.Some? ==> r.value.totalRevenue == data.valorArrecadado && r.value.accumulated == data.acumulou
    ensures r.Some? ==> r.value.estimatedNextPrize == data.valorEstimadoProximoConcurso
  {
    var drawDate := ConvertDate(data.data);
    var nextDate := ConvertDate(data.dataProximoConcurso);
    if drawDate.None? || nextDate.None? then None
    else
      Some(ProcessedResult(
        data.concurso, drawDate.value,
        ParseAll(data.dezenas), ParseAll(data.dezenasOrdemSorteio),
        TotalWinners(data.premiacoes), data.valorArrecadado, data.acumulou,
        data.proximoConcurso, nextDate.value, data.valorEstimadoProximoConcurso))
  }

  /** The external API: the contests it answers with a result. A contest it has no entry
      for stands for a failed request or a non-OK status. */
  type Api = map<int, CaixaResult>

  /** `getResultByContest(contest)`: null on a failed request or a failed conversion. */
  function Fetch(api: Api, contest: int): (r: Option<ProcessedResult>)
    ensures r.Some? ==> contest in api && r == ProcessResult(api[contest])
    ensures contest in api && '/' in api[contest].data && '/' in api[contest].dataProximoConcurso ==> r.Some?
  {
    if contest in api then ProcessResult(api[contest]) else None
  }

  /** How one contest is fetched; `Fetch(api, ·)` for a given API. */
  type Fetcher = int -> Option<ProcessedResult>

  function OptionToSeq(o: Option<ProcessedResult>): (s: seq<ProcessedResult>)
    ensures |s| <= 1
    ensures o.None? <==> s == []
    ensures o.Some? ==> s == [o.value]
  {
    if o.Some? then [o.value] else []
  }

  /** `getHistoricalResults(start, end)`: the non-null results of contests `first..last`,
      in that order. */
  function GetHistoricalResults(fetch: Fetcher, first: int, last: int): (r: seq<ProcessedResult>)
    ensures |r| <= Max(0, last - first + 1)
    decreases last - first + 1
  {
    if first > last then []
    else OptionToSeq(fetch(first)) + GetHistoricalResults(fetch, first + 1, last)
  }

  /** The results are exactly the non-null fetches of the contests in the range. */
  lemma {:induction false} HistoricalContents(fetch: Fetcher, first: int, last: int)
    ensures forall x :: x in GetHistoricalResults(fetch, first, last) ==> exists c :: first <= c <= last && fetch(c) == Some(x)
    ensures forall c :: first <= c <= last && fetch(c).Some? ==> fetch(c).value in GetHistoricalResults(fetch, first, last)
    decreases last - first + 1
  {
    if first <= last {
      HistoricalContents(fetch, first + 1, last);
      var t := GetHistoricalResults(fetch, first + 1, last);
      assert GetHistoricalResults(fetch, first, last) == OptionToSeq(fetch(first)) + t;
      forall x | x in GetHistoricalResults(fetch, first, last) ensures exists c :: first <= c <= last && fetch(c) == Some(x) {
        if x !in t {
          assert fetch(first) == Some(x);
        }
      }
    }
  }

  /** Every result fetched for a contest is that contest's own result. */
  ghost predicate Faithful(fetch: Fetcher) {
    forall c :: fetch(c).Some? ==> fetch(c).value.contestNumber == c
  }

  /** An API that answers each contest with that contest's result gives a faithful fetcher. */
  lemma FaithfulApi(api: Api)
    requires forall c :: c in api ==> api[c].concurso == c
    ensures Faithful(c => Fetch(api, c))
  {
  }

  predicate StrictlyAscending(r: seq<ProcessedResult>) {
    forall i, j :: 0 <= i < j < |r| ==> r[i].contestNumber < r[j].contestNumber
  }

  /** With a faithful fetcher the results come in strictly ascending contest order, all
      inside the requested range. */
  lemma {:induction false} HistoricalAscending(fetch: Fetcher, first: int, last: int)
    requires Faithful(fetch)
    ensures StrictlyAscending(GetHistoricalResults(fetch, first, last))
    ensures forall x :: x in GetHistoricalResults(fetch, first, last) ==> first <= x.contestNumber <= last
    decreases last - first + 1
  {
    if first <= last {
      HistoricalAscending(fetch, first + 1, last);
    }
  }

  /** Fetching a range is fetching its two halves one after the other. */
  lemma {:induction false} HistoricalSplit(fetch: Fetcher, first: int, mid: int, last: int)
    requires first <= mid + 1 <= last + 1
    ensures GetHistoricalResults(fetch, first, last)
      == GetHistoricalResults(fetch, first, mid) + GetHistoricalResults(fetch, mid + 1, last)
    decreases mid - first + 1
  {
    var h := OptionToSeq(fetch(first));
    if first <= mid {
      var a := GetHistoricalResults(fetch, first + 1, mid);
      var b := GetHistoricalResults(fetch, mid + 1, last);
      HistoricalSplit(fetch, first + 1, mid, last);
      assert GetHistoricalResults(fetch, first, last) == h + (a + b);
      assert GetHistoricalResults(fetch, first, mid) == h + a;
      AppendAssociates(h, a, b);
    } else {
      assert GetHistoricalResults(fetch, first, mid) == [];
    }
  }

  /** One `[contest, batchEnd]` block of the update loop. */
  datatype Block = Block(lo: int, hi: int)

  predicate InBlock(b: Block, k: int) {
    b.lo <= k <= b.hi
  }

  /** The blocks `[c, min(c + 9, end)]` for `c = start, start + 10, …` while `c <= end`. */
  function Blocks(start: int, end: int): (bs: seq<Block>)
    ensures start > end <==> bs == []
    ensures forall i :: 0 <= i < |bs| ==> bs[i].lo <= bs[i].hi && bs[i].hi - bs[i].lo < BlockSize
    ensures |bs| > 0 ==> bs[0].lo == start && bs[|bs| - 1].hi == end
    ensures forall i :: 0 <= i < |bs| - 1 ==> bs[i + 1].lo == bs[i].hi + 1
    decreases end - start + 1
  {
    if start > end then []
    else [Block(start, Min(start + BlockSize - 1, end))] + Blocks(start + BlockSize, end)
  }

  /** How many blocks hold contest `k`. */
  function CoverCount(bs: seq<Block>, k: int): (n: nat)
    ensures n <= |bs|
  {
    if |bs| == 0 then 0 else (if InBlock(bs[0], k) then 1 else 0) + CoverCount(bs[1..], k)
  }

  /** Every contest of `start..end` lies in exactly one block, and no other contest in any. */
  lemma {:induction false} BlocksCoverOnce(start: int, end: int, k: int)
    ensures CoverCount(Blocks(start, end), k) == if start <= k <= end then 1 else 0
    decreases end - start + 1
  {
    if start <= end {
      BlocksCoverOnce(start + BlockSize, end, k);
      assert Blocks(start, end)[1..] == Blocks(start + BlockSize, end);
    }
  }

  datatype UpdateError = LatestReadFailed | InsertFailed(lo: int, hi: int)

  /** What the update reports: `success`, `inserted` and `errors`. */
  datatype UpdateResult = UpdateResult(success: bool, inserted: nat, errors: seq<UpdateError>)

  /** The answer to "latest stored contest": an error, no row, or the row's contest. */
  datatype LatestRead = ReadFailed | NoRows | LatestRow(contestNumber: int)

  /** The outcome of the upsert of each block, by block position; a position past the end
      stands for a failed upsert. */
  type Upserts = seq<bool>

  function UpsertOk(upserts: Upserts, k: nat): bool {
    k < |upserts| && upserts[k]
  }

  /** How many results the blocks fetch in all. */
  function FetchedTotal(fetch: Fetcher, bs: seq<Block>): nat {
    if |bs| == 0 then 0
    else |GetHistoricalResults(fetch, bs[0].lo, bs[0].hi)| + FetchedTotal(fetch, bs[1..])
  }

  /** How many fetched results the failed upserts dropped. */
  function FailedSize(fetch: Fetcher, errors: seq<UpdateError>): nat {
    if |errors| == 0 then 0
    else
      var dropped := if errors[0].InsertFailed? then |GetHistoricalResults(fetch, errors[0].lo, errors[0].hi)| else 0;
      dropped + FailedSize(fetch, errors[1..])
  }

  datatype Counters = Counters(inserted: nat, errors: seq<UpdateError>)

  /** The block loop from block position `k` on: a block with results is upserted; success
      adds its result count to `inserted`, failure adds one error naming the block; a block
      with no results changes nothing. */
  function RunBlocks(fetch: Fetcher, bs: seq<Block>, upserts: Upserts, k: nat): (r: Counters)
    ensures r.inserted + FailedSize(fetch, r.errors) == FetchedTotal(fetch, bs)
    ensures |r.errors| <= |bs|
    ensures forall e :: e in r.errors ==> e.InsertFailed? && Block(e.lo, e.hi) in bs
    ensures forall e :: e in r.errors ==> |GetHistoricalResults(fetch, e.lo, e.hi)| > 0
    ensures (forall j :: k <= j < k + |bs| ==> UpsertOk(upserts, j)) ==> r.errors == []
    decreases |bs|
  {
    if |bs| == 0 then Counters(0, [])
    else
      var results := GetHistoricalResults(fetch, bs[0].lo, bs[0].hi);
      var rest := RunBlocks(fetch, bs[1..], upserts, k + 1);
      if |results| == 0 then rest
      else if UpsertOk(upserts, k) then Counters(|results| + rest.inserted, rest.errors)
      else
        var failed := InsertFailed(bs[0].lo, bs[0].hi);
        assert ([failed] + rest.errors)[1..] == rest.errors;
        Counters(rest.inserted, [failed] + rest.errors)
  }

  /** One step of the loop: the first block adds its error in front of the rest's. */
  lemma ErrorsCons(fetch: Fetcher, bs: seq<Block>, upserts: Upserts, k: nat)
    requires |bs| > 0
    ensures RunBlocks(fetch, bs, upserts, k).errors
      == (if FailedBlock(fetch, upserts, bs[0], k) then [InsertFailed(bs[0].lo, bs[0].hi)] else [])
        + RunBlocks(fetch, bs[1..], upserts, k + 1).errors
  {
  }

  /** Block `b`, at loop position `j`, had results and its upsert failed. */
  predicate FailedBlock(fetch: Fetcher, upserts: Upserts, b: Block, j: nat) {
    !UpsertOk(upserts, j) && |GetHistoricalResults(fetch, b.lo, b.hi)| > 0
  }

  predicate Reported(errors: seq<UpdateError>, b: Block) {
    InsertFailed(b.lo, b.hi) in errors
  }

  /** Every non-empty block whose upsert failed is reported as an error. */
  lemma {:induction false} FailedBlocksReported(fetch: Fetcher, bs: seq<Block>, upserts: Upserts, k: nat)
    ensures forall i :: 0 <= i < |bs| && FailedBlock(fetch, upserts, bs[i], k + i) ==>
      Reported(RunBlocks(fetch, bs, upserts, k).errors, bs[i])
    decreases |bs|
  {
    if |bs| > 0 {
      var rest := RunBlocks(fetch, bs[1..], upserts, k + 1);
      var r := RunBlocks(fetch, bs, upserts, k);
      FailedBlocksReported(fetch, bs[1..], upserts, k + 1);
      ErrorsCons(fetch, bs, upserts, k);
      ReportedStep(fetch, bs, upserts, k, r.errors, rest.errors);
    }
  }

  lemma ReportedStep(fetch: Fetcher, bs: seq<Block>, upserts: Upserts, k: nat, errors: seq<UpdateError>, tail: seq<UpdateError>)
    requires |bs| > 0
    requires errors == (if FailedBlock(fetch, upserts, bs[0], k) then [InsertFailed(bs[0].lo, bs[0].hi)] else []) + tail
    requires forall j :: 0 <= j < |bs| - 1 && FailedBlock(fetch, upserts, bs[1..][j], k + 1 + j) ==> Reported(tail, bs[1..][j])
    ensures forall i :: 0 <= i < |bs| && FailedBlock(fetch, upserts, bs[i], k + i) ==> Reported(errors, bs[i])
  {
    forall i | 0 <= i < |bs| && FailedBlock(fetch, upserts, bs[i], k + i) ensures Reported(errors, bs[i]) {
      if i > 0 {
        ReportedInTail(fetch, bs, upserts, k, tail, i);
      }
    }
  }

  lemma ReportedInTail(fetch: Fetcher, bs: seq<Block>, upserts: Upserts, k: nat, errors: seq<UpdateError>, i: nat)
    requires 1 <= i < |bs| && FailedBlock(fetch, upserts, bs[i], k + i)
    requires forall j :: 0 <= j < |bs| - 1 && FailedBlock(fetch, upserts, bs[1..][j], k + 1 + j) ==> Reported(errors, bs[1..][j])
    ensures Reported(errors, bs[i])
  {
    assert bs[1..][i - 1] == bs[i];
  }

  /** Every reported error names a non-empty block whose upsert failed. */
  lemma {:induction false} ReportedBlocksFailed(fetch: Fetcher, bs: seq<Block>, upserts: Upserts, k: nat)
    ensures forall e :: e in RunBlocks(fetch, bs, upserts, k).errors ==>
      e.InsertFailed? && exists i :: 0 <= i < |bs| && bs[i] == Block(e.lo, e.hi) && FailedBlock(fetch, upserts, bs[i], k + i)
    decreases |bs|
  {
    if |bs| > 0 {
      var rest := RunBlocks(fetch, bs[1..], upserts, k + 1);
      var r := RunBlocks(fetch, bs, upserts, k);
      ReportedBlocksFailed(fetch, bs[1..], upserts, k + 1);
      ErrorsCons(fetch, bs, upserts, k);
      FailedStep(fetch, bs, upserts, k, r.errors, rest.errors);
    }
  }

  lemma FailedStep(fetch: Fetcher, bs: seq<Block>, upserts: Upserts, k: nat, errors: seq<UpdateError>, tail: seq<UpdateError>)
    requires |bs| > 0
    requires errors == (if FailedBlock(fetch, upserts, bs[0], k) then [InsertFailed(bs[0].lo, bs[0].hi)] else []) + tail
    requires forall e :: e in tail ==>
      e.InsertFailed? && exists j :: 0 <= j < |bs| - 1 && bs[1..][j] == Block(e.lo, e.hi) && FailedBlock(fetch, upserts, bs[1..][j], k + 1 + j)
    ensures forall e :: e in errors ==>
      e.InsertFailed? && exists i :: 0 <= i < |bs| && bs[i] == Block(e.lo, e.hi) && FailedBlock(fetch, upserts, bs[i], k + i)
  {
    forall e | e in errors
      ensures e.InsertFailed? && exists i :: 0 <= i < |bs| && bs[i] == Block(e.lo, e.hi) && FailedBlock(fetch, upserts, bs[i], k + i)
    {
      if e in tail {
        FailedInTail(fetch, bs, upserts, k, e);
      } else {
        assert bs[0] == Block(e.lo, e.hi);
      }
    }
  }

  lemma FailedInTail(fetch: Fetcher, bs: seq<Block>, upserts: Upserts, k: nat, e: UpdateError)
    requires |bs| > 0 && e.InsertFailed?
    requires exists j :: 0 <= j < |bs| - 1 && bs[1..][j] == Block(e.lo, e.hi) && FailedBlock(fetch, upserts, bs[1..][j], k + 1 + j)
    ensures exists i :: 0 <= i < |bs| && bs[i] == Block(e.lo, e.hi) && FailedBlock(fetch, upserts, bs[i], k + i)
  {
    var j :| 0 <= j < |bs| - 1 && bs[1..][j] == Block(e.lo, e.hi) && FailedBlock(fetch, upserts, bs[1..][j], k + 1 + j);
    assert bs[j + 1] == bs[1..][j];
  }

  /** Each block ends before every later block starts. */
  predicate Ascending(bs: seq<Block>) {
    forall i, j :: 0 <= i < j < |bs| ==> bs[i].hi < bs[j].lo
  }

  /** The errors name failed blocks in increasing contest order, so no block twice. */
  predicate InBlockOrder(errors: seq<UpdateError>) {
    forall i, j :: 0 <= i < j < |errors| ==>
      errors[i].InsertFailed? && errors[j].InsertFailed? && errors[i].hi < errors[j].lo
  }

  /** The blocks of a range come in increasing order. */
  lemma {:induction false} BlocksAscending(start: int, end: int)
    ensures Ascending(Blocks(start, end))
    decreases end - start + 1
  {
    if start <= end {
      var bs := Blocks(start, end);
      var rest := Blocks(start + BlockSize, end);
      BlocksAscending(start + BlockSize, end);
      BlocksWithin(start + BlockSize, end);
      assert bs == [bs[0]] + rest;
      forall i, j | 0 <= i < j < |bs|
        ensures bs[i].hi < bs[j].lo
      {
        assert bs[j] == rest[j - 1];
        if i > 0 {
          assert bs[i] == rest[i - 1];
        } else {
          assert bs[j] in rest;
        }
      }
    }
  }

  /** Over ascending blocks the loop reports its errors in block order. */
  lemma {:induction false} ErrorsInBlockOrder(fetch: Fetcher, bs: seq<Block>, upserts: Upserts, k: nat)
    requires Ascending(bs)
    ensures InBlockOrder(RunBlocks(fetch, bs, upserts, k).errors)
    decreases |bs|
  {
    if |bs| > 0 {
      var rest := RunBlocks(fetch, bs[1..], upserts, k + 1);
      assert Ascending(bs[1..]) by {
        forall i, j | 0 <= i < j < |bs| - 1
          ensures bs[1..][i].hi < bs[1..][j].lo
        {
          assert bs[1..][i] == bs[i + 1] && bs[1..][j] == bs[j + 1];
        }
      }
      ErrorsInBlockOrder(fetch, bs[1..], upserts, k + 1);
      ErrorsCons(fetch, bs, upserts, k);
      TailAfterHead(bs, rest.errors);
      var head := if FailedBlock(fetch, upserts, bs[0], k) then [InsertFailed(bs[0].lo, bs[0].hi)] else [];
      ConsInBlockOrder(bs[0], head, rest.errors);
    }
  }

  /** Errors naming later blocks of an ascending list start after the first block ends. */
  lemma TailAfterHead(bs: seq<Block>, tail: seq<UpdateError>)
    requires |bs| > 0 && Ascending(bs)
    requires forall e :: e in tail ==> e.InsertFailed? && Block(e.lo, e.hi) in bs[1..]
    ensures forall e :: e in tail ==> e.InsertFailed? && bs[0].hi < e.lo
  {
    forall e | e in tail
      ensures bs[0].hi < e.lo
    {
      var j :| 0 <= j < |bs| - 1 && bs[1..][j] == Block(e.lo, e.hi);
      assert bs[j + 1] == bs[1..][j];
    }
  }

  lemma ConsInBlockOrder(b: Block, head: seq<UpdateError>, tail: seq<UpdateError>)
    requires head == [] || head == [InsertFailed(b.lo, b.hi)]
    requires InBlockOrder(tail)
    requires forall e :: e in tail ==> e.InsertFailed? && b.hi < e.lo
    ensures InBlockOrder(head + tail)
  {
    var errors := head + tail;
    if head != [] {
      forall i, j | 0 <= i < j < |errors|
        ensures errors[i].InsertFailed? && errors[j].InsertFailed? && errors[i].hi < errors[j].lo
      {
        assert errors[j] == tail[j - 1];
        if i > 0 {
          assert errors[i] == tail[i - 1];
        } else {
          assert tail[j - 1] in tail;
        }
      }
    } else {
      assert errors == tail;
    }
  }

  /** The blocks of a range fetch, together, what one pass over the range fetches. */
  lemma {:induction false} BlocksFetchRange(fetch: Fetcher, start: int, end: int)
    ensures FetchedTotal(fetch, Blocks(start, end)) == |GetHistoricalResults(fetch, start, end)|
    decreases end - start + 1
  {
    if start <= end {
      var bs := Blocks(start, end);
      var hi := Min(start + BlockSize - 1, end);
      assert bs[1..] == Blocks(start + BlockSize, end);
      BlocksFetchRange(fetch, start + BlockSize, end);
      HistoricalSplit(fetch, start, hi, end);
      if hi == end {
        assert Blocks(start + BlockSize, end) == [];
      }
    }
  }

  /** `latestDb ? latestDb.contest_number + 1 : 1` */
  function StartContest(read: LatestRead): (c: int)
    requires !read.ReadFailed?
    ensures read.NoRows? ==> c == FirstContest
    ensures read.LatestRow? ==> c == read.contestNumber + 1
  {
    if read.LatestRow? then read.contestNumber + 1 else FirstContest
  }

  /** `maxContest || 3600`: absent, NaN and 0 all fall back. */
  function EndContest(maxContest: Option<NumVal>): (c: int)
    ensures c != 0
    ensures maxContest.None? || maxContest == Some(NaN) || maxContest == Some(Int(0)) ==> c == DefaultEndContest
    ensures maxContest.Some? && maxContest.value.Int? && maxContest.value.i != 0 ==> c == maxContest.value.i
  {
    if maxContest.Some? && maxContest.value.Int? && maxContest.value.i != 0 then maxContest.value.i
    else DefaultEndContest
  }

  /** `updateAllHistoricalResults(supabase, maxContest)` */
  function UpdateAllHistoricalResults(read: LatestRead, maxContest: Option<NumVal>, fetch: Fetcher, upserts: Upserts)
    : (r: UpdateResult)
    ensures !r.success <==> read.ReadFailed?
    ensures read.ReadFailed? ==> r == UpdateResult(false, 0, [LatestReadFailed])
    ensures r.success ==>
      r.inserted + FailedSize(fetch, r.errors)
        == |GetHistoricalResults(fetch, StartContest(read), EndContest(maxContest))|
    ensures r.success ==> forall e :: e in r.errors ==>
      e.InsertFailed? && StartContest(read) <= e.lo <= e.hi <= EndContest(maxContest) && e.hi - e.lo < BlockSize
    ensures r.success && (forall j :: 0 <= j < |Blocks(StartContest(read), EndContest(maxContest))| ==> UpsertOk(upserts, j))
      ==> r.errors == [] && r.inserted == |GetHistoricalResults(fetch, StartContest(read), EndContest(maxContest))|
    ensures r.success && StartContest(read) > EndContest(maxContest) ==> r.inserted == 0 && r.errors == []
    ensures r.success ==> var bs := Blocks(StartContest(read), EndContest(maxContest));
      forall i :: 0 <= i < |bs| && FailedBlock(fetch, upserts, bs[i], i) ==> Reported(r.errors, bs[i])
    ensures r.success ==> var bs := Blocks(StartContest(read), EndContest(maxContest));
      forall e :: e in r.errors ==> exists i :: 0 <= i < |bs| && bs[i] == Block(e.lo, e.hi) && FailedBlock(fetch, upserts, bs[i], i)
    ensures r.success ==> InBlockOrder(r.errors)
  {
    if read.ReadFailed? then UpdateResult(false, 0, [LatestReadFailed])
    else
      var start, end := StartContest(read), EndContest(maxContest);
      var bs := Blocks(start, end);
      var counters := RunBlocks(fetch, bs, upserts, 0);
      FailedBlocksReported(fetch, bs, upserts, 0);
      ReportedBlocksFailed(fetch, bs, upserts, 0);
      BlocksAscending(start, end);
      ErrorsInBlockOrder(fetch, bs, upserts, 0);
      BlocksFetchRange(fetch, start, end);
      BlocksWithin(start, end);
      UpdateResult(true, counters.inserted, counters.errors)
  }

  /** Every block lies inside the range it was cut from. */
  lemma {:induction false} BlocksWithin(start: int, end: int)
    ensures forall b :: b in Blocks(start, end) ==> start <= b.lo <= b.hi <= end && b.hi - b.lo < BlockSize
    decreases end - start + 1
  {
    if start <= end {
      BlocksWithin(start + BlockSize, end);
      var first := Block(start, Min(start + BlockSize - 1, end));
      assert Blocks(start, end) == [first] + Blocks(start + BlockSize, end);
    }
  }
}

=== FILE: examples.dfy ===
/** Worked cases: the statistics of two concrete combinations and the counters of two
    concrete imports, as the code computes them. */
module Examples {
  import opened Wrappers
  import opened Json
  import opened Metadata
  import opened GameLine
  import opened Validate
  import opened Importer

  /** 01-02-…-13-21-22 */
  const FirstThirteenThenTwo: seq<int> := [1, 2, 3, 4, 5, 6, 7, 8, 9, 10, 11, 12, 13, 21, 22]

  /** The sum is 134 (1 + … + 13 = 91, plus 43) and the run 1..13 is the longest, so a
      sequence is reported. */
  lemma FirstThirteenStatistics()
    ensures var m := CalculateGameMetadata(FirstThirteenThenTwo);
      && m.sum == 134 && m.maxSequence == 13 && m.hasSequence
  {
    FirstThirteenSum();
    FirstThirteenRun();
  }

  lemma FirstThirteenSum()
    ensures Sum(FirstThirteenThenTwo) == 134
  {
    var a, b, c := [1, 2, 3, 4, 5], [6, 7, 8, 9, 10], [11, 12, 13, 21, 22];
    SumOfFive(1, 2, 3, 4, 5);
    SumOfFive(6, 7, 8, 9, 10);
    SumOfFive(11, 12, 13, 21, 22);
    SumAppend(b, c);
    SumAppend(a, b + c);
    assert FirstThirteenThenTwo == a + (b + c);
  }

  lemma SumOfFive(a: int, b: int, c: int, d: int, e: int)
    ensures Sum([a, b, c, d, e]) == a + b + c + d + e
  {
    assert Sum([e]) == e by { assert [e][1..] == []; }
    assert Sum([d, e]) == d + Sum([e]) by { assert [d, e][1..] == [e]; }
    assert Sum([c, d, e]) == c + Sum([d, e]) by { assert [c, d, e][1..] == [d, e]; }
    assert Sum([b, c, d, e]) == b + Sum([c, d, e]) by { assert [b, c, d, e][1..] == [c, d, e]; }
    assert [a, b, c, d, e][1..] == [b, c, d, e];
  }

  lemma FirstThirteenRun()
    ensures DetectRuns(FirstThirteenThenTwo).longest == 13
  {
    var s := FirstThirteenThenTwo;
    forall lo, hi | IsRun(s, lo, hi) ensures hi - lo <= 13 {
      assert s[13] != s[12] + 1;
    }
    assert RunAt(s, 0, 13);
    LongestRunUnique(s, DetectRuns(s).longest, 13);
  }

  /** 01-03-…-25-02-04: the odd numbers, then 2 and 4. */
  const OddsThenTwoFour: seq<int> := [1, 3, 5, 7, 9, 11, 13, 15, 17, 19, 21, 23, 25, 2, 4]

  lemma OddsThenTwoFourHasNoStep()
    ensures IsGame(OddsThenTwoFour) && NoStep(OddsThenTwoFour)
  {
  }

  /** The line of such a combination is accepted as written and its statistics follow the
      written order: for 01-03-…-25-02-04, 2 and 4 come after 25 and 1, so the longest run
      is 1 (sorted, 1, 2, 3 would be a run of three). */
  lemma UnsortedLineKeepsItsOrder(ns: seq<int>)
    requires IsGame(ns) && NoStep(ns)
    ensures ParseGameLine(FormatGame(ns)).Some?
    ensures var g := ParseGameLine(FormatGame(ns)).value;
      && g.numbers == ns && g.maxSequenceLength == 1 && !g.hasSequence
  {
    FormatRoundTrip(ns);
    NoStepLine(FormatGame(ns), ns);
  }

  lemma NoStepLine(line: string, ns: seq<int>)
    requires |ns| > 0 && NoStep(ns)
    ensures ParseGameLine(line).Some? && ParseGameLine(line).value.numbers == ns ==>
      ParseGameLine(line).value.maxSequenceLength == 1 && !ParseGameLine(line).value.hasSequence
  {
    if ParseGameLine(line).Some? && ParseGameLine(line).value.numbers == ns {
      var g := ParseGameLine(line).value;
      assert g == MakeRecord(ns, g.numbersStr);
      NoStepRecord(ns, g.numbersStr);
    }
  }

  /** The same fifteen numbers as a request body. */
  function AsJson(ns: seq<int>): (v: JsValue)
    ensures v.Arr? && |v.items| == |ns|
    ensures forall i :: 0 <= i < |ns| ==> v.items[i] == Num(ns[i] as real)
  {
    Arr(seq(|ns|, i requires 0 <= i < |ns| => Num(ns[i] as real)))
  }

  /** A combination with a repeated number is a line the importer accepts, while the
      validation endpoint rejects the same numbers as duplicated. */
  lemma RepeatsAcceptedOnImportOnly(ns: seq<int>, lookup: Lookup)
    requires IsGame(ns) && !Distinct(ns)
    ensures ParseGameLine(FormatGame(ns)).Some?
    ensures ValidateGame(AsJson(ns), lookup) == BadRequest(Duplicated, Some(false))
  {
    FormatRoundTrip(ns);
    RepeatsRejected(ns, lookup);
  }

  lemma RepeatsRejected(ns: seq<int>, lookup: Lookup)
    requires IsGame(ns) && !Distinct(ns)
    ensures ValidateGame(AsJson(ns), lookup) == BadRequest(Duplicated, Some(false))
  {
    var v := AsJson(ns);
    forall i | 0 <= i < |v.items| ensures IsGameValue(v.items[i]) {
      assert v.items[i] == Num(ns[i] as real);
    }
    assert IntegerValues(v.items) == ns;
    RejectionOrder(v, lookup);
  }

  /** 2500 accepted lines in batches of 1000, every insert succeeding: three inserts of
      1000, 1000 and 500 records, all 2500 inserted, no errors. */
  lemma ThreeBatchesAllSucceed(games: seq<Option<GameRecord>>)
    requires |AcceptedRecords(games)| == 2500
    ensures var st := RunImport(games, [true, true, true], BatchSize);
      && st.batchNumber == 3
      && |st.inserts[0].records| == 1000 && |st.inserts[1].records| == 1000 && |st.inserts[2].records| == 500
      && st.totalInserted == 2500 && st.errors == 0
  {
    var st := RunImport(games, [true, true, true], BatchSize);
    ThreeBatchSizes(st, AcceptedRecords(games), [true, true, true]);
  }

  /** The same import with the second insert failing: one error, and only the first and
      third batches are counted as inserted. */
  lemma SecondBatchFails(games: seq<Option<GameRecord>>)
    requires |AcceptedRecords(games)| == 2500
    ensures var st := RunImport(games, [true, false, true], BatchSize);
      && st.batchNumber == 3 && st.errors == 1 && st.totalInserted == 1500
  {
    var st := RunImport(games, [true, false, true], BatchSize);
    ThreeBatchSizes(st, AcceptedRecords(games), [true, false, true]);
  }

  lemma ThreeBatchSizes(st: ImportState, accepted: seq<GameRecord>, sink: Sink)
    requires |accepted| == 2500 && |sink| == 3 && Completed(st, accepted, sink, BatchSize)
    ensures st.batchNumber == 3
    ensures |st.inserts[0].records| == 1000 && |st.inserts[1].records| == 1000 && |st.inserts[2].records| == 500
    ensures forall i :: 0 <= i < 3 ==> st.inserts[i].ok == sink[i]
    ensures st.totalInserted == (if sink[0] then 1000 else 0) + (if sink[1] then 1000 else 0) + (if sink[2] then 500 else 0)
    ensures st.errors == (if sink[0] then 0 else 1) + (if sink[1] then 0 else 1) + (if sink[2] then 0 else 1)
  {
    var ins := st.inserts;
    assert CeilDiv(2500, 1000) == 3;
    assert |ins| == 3;
    var one, two := ins[..1], ins[..2];
    assert one[..0] == [] && two[..1] == one && ins[..2] == two;
    assert Sent(one) == ins[0].records;
    assert Sent(two) == ins[0].records + ins[1].records;
    assert Sent(ins) == ins[0].records + ins[1].records + ins[2].records;
    assert SucceededSize(one) == (if ins[0].ok then 1000 else 0);
    assert SucceededSize(two) == SucceededSize(one) + (if ins[1].ok then 1000 else 0);
    assert FailedCount(one) == (if ins[0].ok then 0 else 1);
    assert FailedCount(two) == FailedCount(one) + (if ins[1].ok then 0 else 1);
  }
}

=== FILE: gameline.dfy ===
/** One line of the combinations file turned into the record that is stored for it
    (`parseGameLine` in scripts/import-all-games.ts). The line is cleaned, split on '-',
    each piece read with `parseInt(piece, 10)`; the line is rejected unless it yields exactly
    fifteen numbers in 1..25. Order and duplicates are NOT checked, and the statistics are
    computed over the numbers in the order they appear. */
module GameLine {
  import opened Wrappers
  import opened JsText
  import opened Metadata

  const GameSize: nat := 15
  const LowestNumber: int := 1
  const HighestNumber: int := 25

  /** A row of the `all_possible_games` table. */
  datatype GameRecord = GameRecord(
    numbers: seq<int>,
    numbersStr: string,
    sumNumbers: int,
    oddCount: nat, evenCount: nat,
    lowCount: nat, highCount: nat,
    range1To5: nat, range6To10: nat, range11To15: nat, range16To20: nat, range21To25: nat,
    hasSequence: bool,
    maxSequenceLength: nat)

  /** `line.replace(/"/g, '')` */
  function RemoveQuotes(s: string): (r: string)
    ensures '"' !in r
    ensures '"' !in s ==> r == s
    ensures forall c :: c != '"' ==> multiset(r)[c] == multiset(s)[c]
    ensures |r| == |s| - multiset(s)['"']
    ensures |s| == 1 ==> r == (if s[0] == '"' then "" else s)
  {
    if |s| == 0 then ""
    else
      assert s == [s[0]] + s[1..];
      (if s[0] == '"' then "" else [s[0]]) + RemoveQuotes(s[1..])
  }

  /** Quotes are removed piece by piece: the kept characters stay in their order. */
  lemma {:induction false} RemoveQuotesAppend(a: string, b: string)
    ensures RemoveQuotes(a + b) == RemoveQuotes(a) + RemoveQuotes(b)
    decreases |a|
  {
    if |a| == 0 {
      assert a + b == b;
    } else {
      RemoveQuotesAppend(a[1..], b);
      AppendAfterHead(a[0], a[1..], b);
      HeadTail(a);
    }
  }

  lemma AppendAfterHead(c: char, t: string, b: string)
    requires RemoveQuotes(t + b) == RemoveQuotes(t) + RemoveQuotes(b)
    ensures RemoveQuotes([c] + t + b) == RemoveQuotes([c] + t) + RemoveQuotes(b)
  {
    var h := if c == '"' then "" else [c];
    AppendAssociates([c], t, b);
    RemoveQuotesCons(c, t);
    RemoveQuotesCons(c, t + b);
    AppendAssociates(h, RemoveQuotes(t), RemoveQuotes(b));
  }

  lemma RemoveQuotesCons(c: char, t: string)
    ensures RemoveQuotes([c] + t) == (if c == '"' then "" else [c]) + RemoveQuotes(t)
  {
    assert ([c] + t)[0] == c && ([c] + t)[1..] == t;
  }

  /** `line.replace(/"/g, '').trim()` */
  function CleanLine(line: string): (r: string)
    ensures |r| == 0 || (!IsWhitespace(r[0]) && !IsWhitespace(r[|r| - 1]))
    ensures '"' !in r
    ensures TrimmedFrom(RemoveQuotes(line), r)
    ensures '"' !in line && NoWhitespace(line) ==> r == line
  {
    TrimmedFromInside(RemoveQuotes(line), Trim(RemoveQuotes(line)));
    Trim(RemoveQuotes(line))
  }

  /** The tokens of a cleaned line: `cleanLine.split('-')`. */
  function Tokens(line: string): seq<string> {
    Split(CleanLine(line), '-')
  }

  /** Not rejected by `isNaN(n) || n < 1 || n > 25`. */
  predicate IsGameNumber(v: NumVal) {
    v.Int? && LowestNumber <= v.i <= HighestNumber
  }

  predicate IsGame(numbers: seq<int>) {
    |numbers| == GameSize && forall i :: 0 <= i < |numbers| ==> LowestNumber <= numbers[i] <= HighestNumber
  }

  /** The conditions under which `parseGameLine` returns a record rather than null. */
  predicate Accepted(line: string) {
    var tokens := Tokens(line);
    && |CleanLine(line)| > 0
    && |tokens| == GameSize
    && forall i :: 0 <= i < |tokens| ==> IsGameNumber(TokenValues(tokens)[i])
  }

  /** Every statistic of the record is the one `calculateGameMetadata` gives for its numbers. */
  predicate CarriesMetadata(g: GameRecord) {
    var m := CalculateGameMetadata(g.numbers);
    && g.sumNumbers == m.sum
    && g.oddCount == m.odd && g.evenCount == m.even
    && g.lowCount == m.low && g.highCount == m.high
    && g.range1To5 == m.range1To5 && g.range6To10 == m.range6To10
    && g.range11To15 == m.range11To15 && g.range16To20 == m.range16To20
    && g.range21To25 == m.range21To25
    && g.hasSequence == m.hasSequence
    && g.maxSequenceLength == m.maxSequence
  }

  function MakeRecord(numbers: seq<int>, clean: string): (g: GameRecord)
    ensures g.numbers == numbers && g.numbersStr == clean && CarriesMetadata(g)
  {
    var m := CalculateGameMetadata(numbers);
    GameRecord(numbers, clean, m.sum, m.odd, m.even, m.low, m.high,
               m.range1To5, m.range6To10, m.range11To15, m.range16To20, m.range21To25,
               m.hasSequence, m.maxSequence)
  }

  /** `cleanLine.split('-').map(n => parseInt(n, 10))` */
  function TokenValues(tokens: seq<string>): (vs: seq<NumVal>)
    ensures |vs| == |tokens|
    ensures forall i :: 0 <= i < |tokens| ==> vs[i] == ParseInt(tokens[i])
  {
    if |tokens| == 0 then [] else [ParseInt(tokens[0])] + TokenValues(tokens[1..])
  }

  /** The integers behind values that all passed the range check. */
  function GameNumbers(vs: seq<NumVal>): (ns: seq<int>)
    requires forall i :: 0 <= i < |vs| ==> IsGameNumber(vs[i])
    ensures |ns| == |vs|
    ensures forall i :: 0 <= i < |vs| ==> vs[i] == Int(ns[i])
    ensures forall i :: 0 <= i < |ns| ==> LowestNumber <= ns[i] <= HighestNumber
  {
    if |vs| == 0 then []
    else
      assert IsGameNumber(vs[0]);
      [vs[0].i] + GameNumbers(vs[1..])
  }

  /** `parseGameLine(line)`: None stands for the `null` it returns on a rejected line. */
  function ParseGameLine(line: string): (r: Option<GameRecord>)
    ensures r.Some? <==> Accepted(line)
    ensures r.Some? ==> IsGame(r.value.numbers)
    ensures r.Some? ==> forall i :: 0 <= i < GameSize ==> TokenValues(Tokens(line))[i] == Int(r.value.numbers[i])
    ensures r.Some? ==> r.value.numbersStr == CleanLine(line)
    ensures r.Some? ==> CarriesMetadata(r.value)
  {
    var clean := CleanLine(line);
    if |clean| == 0 then None
    else
      var values := TokenValues(Tokens(line));
      if |values| != GameSize then None
      else if exists i | 0 <= i < |values| :: !IsGameNumber(values[i]) then None
      else Some(RecordOf(clean, values))
  }

  /** The record of a cleaned line whose fifteen values all passed the range check. */
  function RecordOf(clean: string, values: seq<NumVal>): (g: GameRecord)
    requires |values| == GameSize
    requires forall i :: 0 <= i < |values| ==> IsGameNumber(values[i])
    ensures IsGame(g.numbers) && CarriesMetadata(g) && g.numbersStr == clean
    ensures forall i :: 0 <= i < GameSize ==> values[i] == Int(g.numbers[i])
  {
    var ns := GameNumbers(values);
    GameNumbersIsGame(values);
    MakeRecord(ns, clean)
  }

  lemma GameNumbersIsGame(values: seq<NumVal>)
    requires |values| == GameSize
    requires forall i :: 0 <= i < |values| ==> IsGameNumber(values[i])
    ensures IsGame(GameNumbers(values))
  {
  }

  /** A non-blank line whose fifteen pieces read as the numbers of a game is accepted, and
      its record holds exactly those numbers and the cleaned line. */
  lemma ParsesTo(line: string, ns: seq<int>)
    requires IsGame(ns) && |CleanLine(line)| > 0 && |Tokens(line)| == GameSize
    requires forall i :: 0 <= i < GameSize ==> ParseInt(Tokens(line)[i]) == Int(ns[i])
    ensures ParseGameLine(line) == Some(MakeRecord(ns, CleanLine(line)))
  {
    var values := TokenValues(Tokens(line));
    GameNumbersOf(values, ns);
    var got := GameNumbers(values);
    var clean := CleanLine(line);
    assert ParseGameLine(line) == Some(RecordOf(clean, values));
    assert RecordOf(clean, values) == MakeRecord(got, clean);
  }

  /** Values that are exactly the numbers of a game pass the range check and give back
      those numbers. */
  lemma GameNumbersOf(values: seq<NumVal>, ns: seq<int>)
    requires IsGame(ns) && |values| == |ns|
    requires forall i :: 0 <= i < |ns| ==> values[i] == Int(ns[i])
    ensures forall i :: 0 <= i < |values| ==> IsGameNumber(values[i])
    ensures GameNumbers(values) == ns
  {
    assert forall i :: 0 <= i < |values| ==> IsGameNumber(values[i]);
    var got := GameNumbers(values);
    assert forall i :: 0 <= i < |ns| ==> got[i] == ns[i];
  }

  /** An accepted line gives a record whose counts partition the fifteen numbers, whose sum
      lies in 15..375 and whose run statistics agree with each other. */
  lemma AcceptedRecordInvariants(line: string)
    ensures ParseGameLine(line).Some? ==> StoredGameInvariants(ParseGameLine(line).value)
  {
    if ParseGameLine(line).Some? {
      var g := ParseGameLine(line).value;
      assert g == MakeRecord(g.numbers, g.numbersStr);
      RecordInvariants(g.numbers, g.numbersStr);
    }
  }

  predicate StoredGameInvariants(g: GameRecord) {
    && g.oddCount + g.evenCount == GameSize
    && g.lowCount + g.highCount == GameSize
    && g.range1To5 + g.range6To10 + g.range11To15 + g.range16To20 + g.range21To25 == GameSize
    && g.sumNumbers == Sum(g.numbers)
    && 15 <= g.sumNumbers <= 375
    && 1 <= g.maxSequenceLength <= GameSize
    && (g.hasSequence <==> g.maxSequenceLength >= 3)
  }

  /** The record of any game satisfies the stored invariants. */
  lemma RecordInvariants(ns: seq<int>, clean: string)
    requires IsGame(ns)
    ensures StoredGameInvariants(MakeRecord(ns, clean))
  {
    var m := CalculateGameMetadata(ns);
    assert m.odd + m.even == GameSize && BandTotal(m) == GameSize;
    SumBounds(ns);
  }

  /** A record whose numbers never step up by one has longest run 1 and no sequence. */
  lemma NoStepRecord(ns: seq<int>, clean: string)
    requires |ns| > 0 && NoStep(ns)
    ensures MakeRecord(ns, clean).maxSequenceLength == 1 && !MakeRecord(ns, clean).hasSequence
  {
    NoStepMeansNoRun(ns);
  }
}

=== FILE: importer.dfy ===
/** The import script's main loop (`importAllGames` in scripts/import-all-games.ts): every
    accepted line's record is buffered, a full buffer is inserted as one batch, a failed
    batch is counted and dropped, and a last partial batch is inserted at the end. The
    outcome of each insert is given, batch by batch. */
module Importer {
  import opened Wrappers
  import opened GameLine
  import opened JsText

  const BatchSize: nat := 1000
  const GamesEntry: string := "games.csv"

  /** One `insertBatch` call: the records sent and whether the insert succeeded. */
  datatype Insert = Insert(records: seq<GameRecord>, ok: bool)

  /** The loop's variables, plus the inserts made so far. */
  datatype ImportState = ImportState(
    batch: seq<GameRecord>,
    totalProcessed: nat,
    totalInserted: nat,
    batchNumber: nat,
    errors: nat,
    inserts: seq<Insert>)

  const Initial := ImportState([], 0, 0, 0, 0, [])

  /** The outcome of each insert by batch number (1 is the first); a number past the end
      stands for a failed insert. */
  type Sink = seq<bool>

  function InsertOk(sink: Sink, batchNumber: nat): bool {
    1 <= batchNumber <= |sink| && sink[batchNumber - 1]
  }

  /** Insert the buffer as the next batch and empty it, whatever the outcome. */
  function Flush(st: ImportState, sink: Sink): (r: ImportState)
    ensures r.batch == [] && r.batchNumber == st.batchNumber + 1
    ensures r.inserts == st.inserts + [Insert(st.batch, InsertOk(sink, r.batchNumber))]
    ensures r.totalProcessed == st.totalProcessed
    ensures InsertOk(sink, r.batchNumber) ==> r.totalInserted == st.totalInserted + |st.batch| && r.errors == st.errors
    ensures !InsertOk(sink, r.batchNumber) ==> r.totalInserted == st.totalInserted && r.errors == st.errors + 1
  {
    var n := st.batchNumber + 1;
    var ok := InsertOk(sink, n);
    ImportState(
      [], st.totalProcessed,
      if ok then st.totalInserted + |st.batch| else st.totalInserted,
      n,
      if ok then st.errors else st.errors + 1,
      st.inserts + [Insert(st.batch, ok)])
  }

  /** One line of the file, already through `parseGameLine`: a rejected line is skipped; an
      accepted one is buffered and a full buffer is flushed. */
  function Step(st: ImportState, game: Option<GameRecord>, sink: Sink, size: nat): (r: ImportState)
    ensures game.None? ==> r == st
    ensures game.Some? ==> r.totalProcessed == st.totalProcessed + 1 && st.inserts <= r.inserts
    ensures game.Some? && |st.batch| + 1 < size ==> r.batch == st.batch + [game.value] && r.inserts == st.inserts
    ensures game.Some? && |st.batch| + 1 >= size ==>
      r.batch == [] && r.inserts == st.inserts + [Insert(st.batch + [game.value], InsertOk(sink, st.batchNumber + 1))]
  {
    match game
    case None => st
    case Some(g) =>
      var buffered := st.(batch := st.batch + [g], totalProcessed := st.totalProcessed + 1);
      if |buffered.batch| >= size then Flush(buffered, sink) else buffered
  }

  /** The `for await (const line of rl)` loop. */
  function Feed(st: ImportState, games: seq<Option<GameRecord>>, sink: Sink, size: nat): (r: ImportState)
    ensures r.totalProcessed == st.totalProcessed + |AcceptedRecords(games)|
    ensures st.inserts <= r.inserts
    decreases |games|
  {
    if |games| == 0 then st
    else
      assert AcceptedRecords(games) == AcceptedRecords([games[0]]) + AcceptedRecords(games[1..]) by {
        assert [games[0]][1..] == [];
      }
      Feed(Step(st, games[0], sink, size), games[1..], sink, size)
  }

  /** `if (batch.length > 0)`: the last, partial batch. */
  function Finish(st: ImportState, sink: Sink): (r: ImportState)
    ensures r.batch == [] && r.totalProcessed == st.totalProcessed
    ensures st.batch == [] ==> r == st
    ensures st.batch != [] ==> r.inserts == st.inserts + [Insert(st.batch, InsertOk(sink, st.batchNumber + 1))]
  {
    if |st.batch| > 0 then Flush(st, sink) else st
  }

  /** The records of the accepted lines, in file order. */
  function AcceptedRecords(games: seq<Option<GameRecord>>): (rs: seq<GameRecord>)
    ensures |rs| <= |games|
  {
    if |games| == 0 then []
    else (if games[0].Some? then [games[0].value] else []) + AcceptedRecords(games[1..])
  }

  /** Everything sent to the table, in order. */
  function Sent(inserts: seq<Insert>): seq<GameRecord> {
    if |inserts| == 0 then [] else Sent(inserts[..|inserts| - 1]) + inserts[|inserts| - 1].records
  }

  /** How many records the successful inserts carried. */
  function SucceededSize(inserts: seq<Insert>): nat {
    if |inserts| == 0 then 0
    else SucceededSize(inserts[..|inserts| - 1]) + (if inserts[|inserts| - 1].ok then |inserts[|inserts| - 1].records| else 0)
  }

  /** How many records the failed inserts carried. */
  function FailedSize(inserts: seq<Insert>): nat {
    if |inserts| == 0 then 0
    else FailedSize(inserts[..|inserts| - 1]) + (if inserts[|inserts| - 1].ok then 0 else |inserts[|inserts| - 1].records|)
  }

  function FailedCount(inserts: seq<Insert>): nat {
    if |inserts| == 0 then 0
    else FailedCount(inserts[..|inserts| - 1]) + (if inserts[|inserts| - 1].ok then 0 else 1)
  }

  /** What holds between lines: the inserts so far were all full, and together with the
      buffer they hold exactly the records accepted so far. */
  predicate LoopInvariant(st: ImportState, accepted: seq<GameRecord>, sink: Sink, size: nat) {
    && Sent(st.inserts) + st.batch == accepted
    && |st.batch| < size
    && (forall i :: 0 <= i < |st.inserts| ==> |st.inserts[i].records| == size)
    && (forall i :: 0 <= i < |st.inserts| ==> st.inserts[i].ok == InsertOk(sink, i + 1))
    && st.batchNumber == |st.inserts|
    && st.totalProcessed == |accepted|
    && st.totalInserted == SucceededSize(st.inserts)
    && st.errors == FailedCount(st.inserts)
  }

  lemma FlushAccounting(st: ImportState, sink: Sink)
    requires st.batchNumber == |st.inserts|
    requires st.totalInserted == SucceededSize(st.inserts) && st.errors == FailedCount(st.inserts)
    ensures var r := Flush(st, sink);
      && Sent(r.inserts) == Sent(st.inserts) + st.batch
      && r.batchNumber == |r.inserts|
      && r.totalInserted == SucceededSize(r.inserts)
      && r.errors == FailedCount(r.inserts)
      && FailedSize(r.inserts) == FailedSize(st.inserts) + (if InsertOk(sink, r.batchNumber) then 0 else |st.batch|)
  {
    var r := Flush(st, sink);
    assert r.inserts[..|r.inserts| - 1] == st.inserts;
  }

  lemma StepKeepsInvariant(st: ImportState, game: Option<GameRecord>, accepted: seq<GameRecord>, sink: Sink, size: nat)
    requires size >= 1 && LoopInvariant(st, accepted, sink, size)
    ensures LoopInvariant(Step(st, game, sink, size), accepted + AcceptedRecords([game]), sink, size)
  {
    assert AcceptedRecords([game]) == (if game.Some? then [game.value] else []) by {
      assert [game][1..] == [];
    }
    if game.Some? {
      var buffered := st.(batch := st.batch + [game.value], totalProcessed := st.totalProcessed + 1);
      if |buffered.batch| >= size {
        FullBatchFlushes(st, game.value, accepted, sink, size);
      }
    }
  }

  /** The record that fills the buffer sends it as the next batch. */
  lemma FullBatchFlushes(st: ImportState, g: GameRecord, accepted: seq<GameRecord>, sink: Sink, size: nat)
    requires size >= 1 && LoopInvariant(st, accepted, sink, size) && |st.batch| + 1 >= size
    ensures LoopInvariant(Step(st, Some(g), sink, size), accepted + [g], sink, size)
  {
    var buffered := st.(batch := st.batch + [g], totalProcessed := st.totalProcessed + 1);
    FlushAccounting(buffered, sink);
    var r := Flush(buffered, sink);
    assert Step(st, Some(g), sink, size) == r;
    assert r.inserts[|st.inserts|] == Insert(buffered.batch, InsertOk(sink, |st.inserts| + 1));
  }

  lemma {:induction false} AcceptedRecordsAppend(a: seq<Option<GameRecord>>, b: seq<Option<GameRecord>>)
    ensures AcceptedRecords(a + b) == AcceptedRecords(a) + AcceptedRecords(b)
    decreases |a|
  {
    if |a| == 0 {
      assert a + b == b;
    } else {
      var head := if a[0].Some? then [a[0].value] else [];
      assert (a + b)[0] == a[0] && (a + b)[1..] == a[1..] + b;
      assert AcceptedRecords(a + b) == head + AcceptedRecords(a[1..] + b);
      AcceptedRecordsAppend(a[1..], b);
      assert AcceptedRecords(a) == head + AcceptedRecords(a[1..]);
    }
  }

  lemma {:induction false} FeedKeepsInvariant(st: ImportState, games: seq<Option<GameRecord>>, accepted: seq<GameRecord>, sink: Sink, size: nat)
    requires size >= 1 && LoopInvariant(st, accepted, sink, size)
    ensures LoopInvariant(Feed(st, games, sink, size), accepted + AcceptedRecords(games), sink, size)
    decreases |games|
  {
    if |games| == 0 {
      assert accepted + AcceptedRecords(games) == accepted;
    } else {
      var next := Step(st, games[0], sink, size);
      var acc := accepted + AcceptedRecords([games[0]]);
      StepKeepsInvariant(st, games[0], accepted, sink, size);
      FeedKeepsInvariant(next, games[1..], acc, sink, size);
      assert Feed(st, games, sink, size) == Feed(next, games[1..], sink, size);
      AcceptedSplit(accepted, games);
    }
  }

  lemma AcceptedSplit(accepted: seq<GameRecord>, games: seq<Option<GameRecord>>)
    requires |games| > 0
    ensures accepted + AcceptedRecords([games[0]]) + AcceptedRecords(games[1..]) == accepted + AcceptedRecords(games)
  {
    var x, y := AcceptedRecords([games[0]]), AcceptedRecords(games[1..]);
    AcceptedRecordsAppend([games[0]], games[1..]);
    assert [games[0]] + games[1..] == games;
    assert AcceptedRecords(games) == x + y;
    AppendAssociates(accepted, x, y);
  }

  /** `ceil(n / d)` */
  function CeilDiv(n: nat, d: nat): nat
    requires d >= 1
  {
    (n + d - 1) / d
  }

  lemma MulAtLeast(d: int, m: int)
    requires d >= 1 && m >= 1
    ensures d * m >= d
  {
    assert d * m == d * (m - 1) + d;
  }

  lemma DivOfMultiplePlus(d: nat, q: nat, r: nat)
    requires d >= 1 && r < d
    ensures (d * q + r) / d == q
  {
    var x := d * q + r;
    var m := x / d - q;
    assert d * m == r - x % d by {
      assert x == d * (x / d) + x % d;
      assert d * m == d * (x / d) - d * q;
    }
    if m >= 1 {
      MulAtLeast(d, m);
    } else if m <= -1 {
      MulAtLeast(d, -m);
    }
  }

  lemma {:induction false} SentLength(ins: seq<Insert>)
    ensures |Sent(ins)| == SucceededSize(ins) + FailedSize(ins)
    decreases |ins|
  {
    if |ins| > 0 {
      SentLength(ins[..|ins| - 1]);
    }
  }

  lemma {:induction false} FullSentLength(ins: seq<Insert>, size: nat)
    requires forall i :: 0 <= i < |ins| ==> |ins[i].records| == size
    ensures |Sent(ins)| == size * |ins|
    decreases |ins|
  {
    if |ins| > 0 {
      FullSentLength(ins[..|ins| - 1], size);
    }
  }

  /** The batches sent: none empty, none over `size`, all but the last exactly `size`, and
      each with the outcome the sink gave for its batch number. */
  predicate BatchShape(inserts: seq<Insert>, sink: Sink, size: nat) {
    && (forall i :: 0 <= i < |inserts| ==> 1 <= |inserts[i].records| <= size)
    && (forall i :: 0 <= i < |inserts| - 1 ==> |inserts[i].records| == size)
    && (forall i :: 0 <= i < |inserts| ==> inserts[i].ok == InsertOk(sink, i + 1))
  }

  /** The counters the script reports, against the batches it sent. */
  predicate Counted(st: ImportState, accepted: seq<GameRecord>, size: nat)
    requires size >= 1
  {
    && st.totalProcessed == |accepted|
    && st.batchNumber == |st.inserts| == CeilDiv(st.totalProcessed, size)
    && st.totalInserted == SucceededSize(st.inserts)
    && st.totalInserted + FailedSize(st.inserts) == st.totalProcessed
    && st.errors == FailedCount(st.inserts)
  }

  /** What the import has done once the file is exhausted and the last batch is flushed:
      every accepted record was sent exactly once, in order, and the counters agree. */
  predicate Completed(st: ImportState, accepted: seq<GameRecord>, sink: Sink, size: nat)
    requires size >= 1
  {
    && st.batch == []
    && Sent(st.inserts) == accepted
    && BatchShape(st.inserts, sink, size)
    && Counted(st, accepted, size)
  }

  /** The loop over the file's lines followed by the last flush, from the empty state. */
  function RunImport(games: seq<Option<GameRecord>>, sink: Sink, size: nat): (st: ImportState)
    requires size >= 1
    ensures Completed(st, AcceptedRecords(games), sink, size)
  {
    var fed := Feed(Initial, games, sink, size);
    FeedKeepsInvariant(Initial, games, [], sink, size);
    assert [] + AcceptedRecords(games) == AcceptedRecords(games);
    FinishCompletes(fed, AcceptedRecords(games), sink, size);
    Finish(fed, sink)
  }

  lemma FinishCompletes(st: ImportState, accepted: seq<GameRecord>, sink: Sink, size: nat)
    requires size >= 1 && LoopInvariant(st, accepted, sink, size)
    ensures Completed(Finish(st, sink), accepted, sink, size)
  {
    FullSentLength(st.inserts, size);
    if |st.batch| > 0 {
      FinishWithFlush(st, accepted, sink, size);
    } else {
      var k := |st.inserts|;
      if k > 0 {
        DivOfMultiplePlus(size, k, size - 1);
      }
      assert |accepted| + size - 1 == size * k + (size - 1);
      SentLength(st.inserts);
    }
  }

  lemma FinishWithFlush(st: ImportState, accepted: seq<GameRecord>, sink: Sink, size: nat)
    requires size >= 1 && LoopInvariant(st, accepted, sink, size) && |st.batch| > 0
    requires |Sent(st.inserts)| == size * |st.inserts|
    ensures Completed(Finish(st, sink), accepted, sink, size)
  {
    var r := Flush(st, sink);
    assert Finish(st, sink) == r;
    FlushAccounting(st, sink);
    FlushShape(st, sink, size);
    FlushCounted(st, accepted, sink, size);
  }

  lemma FlushShape(st: ImportState, sink: Sink, size: nat)
    requires 1 <= |st.batch| <= size && st.batchNumber == |st.inserts|
    requires forall i :: 0 <= i < |st.inserts| ==> |st.inserts[i].records| == size
    requires forall i :: 0 <= i < |st.inserts| ==> st.inserts[i].ok == InsertOk(sink, i + 1)
    ensures BatchShape(Flush(st, sink).inserts, sink, size)
  {
    var k := |st.inserts|;
    var r := Flush(st, sink);
    assert r.inserts[..k] == st.inserts;
    assert r.inserts[k].records == st.batch;
  }

  lemma FlushCounted(st: ImportState, accepted: seq<GameRecord>, sink: Sink, size: nat)
    requires size >= 1 && 1 <= |st.batch| <= size
    requires Sent(st.inserts) + st.batch == accepted && |Sent(st.inserts)| == size * |st.inserts|
    requires st.batchNumber == |st.inserts| && st.totalProcessed == |accepted|
    requires st.totalInserted == SucceededSize(st.inserts) && st.errors == FailedCount(st.inserts)
    ensures Counted(Flush(st, sink), accepted, size)
  {
    var r := Flush(st, sink);
    FlushAccounting(st, sink);
    CeilAfterFull(size, |st.inserts|, |st.batch|);
    SentLength(r.inserts);
  }

  /** `k` full batches and a last one of `b` records make `k + 1` batches. */
  lemma CeilAfterFull(size: nat, k: nat, b: nat)
    requires size >= 1 && 1 <= b <= size
    ensures CeilDiv(size * k + b, size) == k + 1
  {
    assert size * k + b + size - 1 == size * (k + 1) + (b - 1);
    DivOfMultiplePlus(size, k + 1, b - 1);
  }

  /** An entry of the zip archive and, for `games.csv`, its lines. */
  datatype ZipEntry = ZipEntry(path: string, lines: seq<string>)

  /** The lines the loop reads: those of every entry named `games.csv`, in archive order;
      other entries are drained unread. */
  function GameLines(entries: seq<ZipEntry>): seq<string> {
    if |entries| == 0 then []
    else (if entries[0].path == GamesEntry then entries[0].lines else []) + GameLines(entries[1..])
  }

  /** `parseGameLine` over the lines. */
  function ParseLines(lines: seq<string>): (gs: seq<Option<GameRecord>>)
    ensures |gs| == |lines|
    ensures forall i :: 0 <= i < |lines| ==> gs[i] == ParseGameLine(lines[i])
  {
    seq(|lines|, i requires 0 <= i < |lines| => ParseGameLine(lines[i]))
  }

  datatype ImportOutcome = TableMissing | Imported(state: ImportState)

  /** `importAllGames()`: a failed table probe ends the script; otherwise the table is
      cleared (its outcome is not checked) and the file is imported in batches of 1000. */
  function ImportAllGames(tableExists: bool, entries: seq<ZipEntry>, sink: Sink): (r: ImportOutcome)
    ensures r.TableMissing? <==> !tableExists
    ensures r.Imported? ==> Completed(r.state, AcceptedRecords(ParseLines(GameLines(entries))), sink, BatchSize)
  {
    if !tableExists then TableMissing
    else Imported(RunImport(ParseLines(GameLines(entries)), sink, BatchSize))
  }
}

=== FILE: json.dfy ===
/** The JSON values a request body can carry, as JavaScript sees them after `request.json()`:
    a property that is absent reads as `undefined`. */
module Json {

  datatype JsValue =
    | Undefined
    | Null
    | Bool(b: bool)
    | Num(x: real)
    | Str(s: string)
    | Arr(items: seq<JsValue>)
    | Obj

  /** `Number.isInteger(v)` */
  predicate IsInteger(v: JsValue) {
    v.Num? && v.x == v.x.Floor as real
  }
}

=== FILE: jstext.dfy ===
/** The JavaScript string and number primitives the Lotofacil code leans on:
    `String.prototype.trim`, `split`, `padStart`, `Array.prototype.join`, `parseInt(s, 10)`,
    `Number(s)` and `String(n)`, restricted to what integer-valued lottery data needs. */
module JsText {
  import opened Wrappers

  /** A JavaScript number as produced by `parseInt` or `Number`: an integer, or NaN. */
  datatype NumVal = Int(i: int) | NaN

  /** JavaScript's StrWhiteSpaceChar: the WhiteSpace and LineTerminator code points that
      `trim` removes, `parseInt` skips and `Number` ignores around a literal. */
  predicate IsWhitespace(c: char) {
    || c == ' ' || c == '\t' || c == '\n' || c == '\r'
    || c == '\U{000B}' || c == '\U{000C}' || c == '\U{00A0}' || c == '\U{1680}'
    || ('\U{2000}' <= c <= '\U{200A}')
    || c == '\U{2028}' || c == '\U{2029}' || c == '\U{202F}' || c == '\U{205F}'
    || c == '\U{3000}' || c == '\U{FEFF}'
  }

  predicate IsDigit(c: char) {
    '0' <= c <= '9'
  }

  predicate AllDigits(s: string) {
    forall i :: 0 <= i < |s| ==> IsDigit(s[i])
  }

  predicate AllWhitespace(s: string) {
    forall i :: 0 <= i < |s| ==> IsWhitespace(s[i])
  }

  predicate NoWhitespace(s: string) {
    forall i :: 0 <= i < |s| ==> !IsWhitespace(s[i])
  }

  /** Concatenation is associative; stated once so that proofs about strings can use it
      without unfolding their own functions. */
  lemma AppendAssociates<T>(h: seq<T>, a: seq<T>, b: seq<T>)
    ensures h + (a + b) == (h + a) + b
  {
  }

  lemma HeadTail<T>(a: seq<T>)
    requires |a| > 0
    ensures [a[0]] + a[1..] == a
  {
  }

  function DigitValue(c: char): (d: nat)
    requires IsDigit(c)
    ensures d < 10
  {
    c as int - '0' as int
  }

  function DigitChar(d: nat): (c: char)
    requires d < 10
    ensures IsDigit(c) && DigitValue(c) == d
  {
    ('0' as int + d) as char
  }

  /** The value of a string of decimal digits, most significant first ("" is 0). */
  function DecimalValue(s: string): nat
    requires AllDigits(s)
  {
    if |s| == 0 then 0 else DecimalValue(s[..|s| - 1]) * 10 + DigitValue(s[|s| - 1])
  }

  /** `String(n)` for a non-negative integer: the shortest decimal rendering. */
  function NatToString(n: nat): (s: string)
    ensures AllDigits(s) && DecimalValue(s) == n
    ensures 1 <= |s|
    ensures n < 10 <==> |s| == 1
    ensures 10 <= n < 100 ==> |s| == 2
    ensures |s| > 1 ==> s[0] != '0'
  {
    if n < 10 then [DigitChar(n)]
    else
      var s := NatToString(n / 10) + [DigitChar(n % 10)];
      assert s[..|s| - 1] == NatToString(n / 10);
      s
  }

  /** `String(i)` for an integer: a minus sign in front of the magnitude when negative. */
  function IntToString(i: int): (s: string)
    ensures 1 <= |s|
    ensures i >= 0 ==> AllDigits(s) && DecimalValue(s) == i
    ensures i < 0 ==> s[0] == '-' && AllDigits(s[1..]) && DecimalValue(s[1..]) == -i
  {
    if i < 0 then "-" + NatToString(-i) else NatToString(i)
  }

  /** `s.padStart(width, [fill])`: `fill` repeated in front of `s` up to `width` characters. */
  function PadStart(s: string, width: nat, fill: char): (r: string)
    ensures |r| == Max(|s|, width)
    ensures r[|r| - |s|..] == s
    ensures forall i :: 0 <= i < |r| - |s| ==> r[i] == fill
  {
    if |s| >= width then s else seq(width - |s|, _ => fill) + s
  }

  /** Zero padding never changes the value a digit string denotes. */
  lemma {:induction false} PadZeroKeepsValue(s: string, width: nat)
    requires AllDigits(s)
    ensures AllDigits(PadStart(s, width, '0'))
    ensures DecimalValue(PadStart(s, width, '0')) == DecimalValue(s)
  {
    if |s| < width {
      var r := PadStart(s, width, '0');
      var p := seq(width - |s|, _ => '0');
      assert r == p + s;
      LeadingZerosKeepValue(p, s);
    }
  }

  lemma {:induction false} LeadingZerosKeepValue(zeros: string, s: string)
    requires forall i :: 0 <= i < |zeros| ==> zeros[i] == '0'
    requires AllDigits(s)
    ensures AllDigits(zeros + s)
    ensures DecimalValue(zeros + s) == DecimalValue(s)
    decreases |s|, |zeros|
  {
    var t := zeros + s;
    if |s| == 0 {
      assert t == zeros;
      if |zeros| > 0 {
        assert t[..|t| - 1] == zeros[..|zeros| - 1] + s;
        LeadingZerosKeepValue(zeros[..|zeros| - 1], s);
      }
    } else {
      assert t[..|t| - 1] == zeros + s[..|s| - 1];
      LeadingZerosKeepValue(zeros, s[..|s| - 1]);
    }
  }

  /** Number of leading whitespace characters. */
  function LeadingWhitespace(s: string): (k: nat)
    ensures k <= |s|
    ensures forall i :: 0 <= i < k ==> IsWhitespace(s[i])
    ensures AllWhitespace(s[..k])
    ensures k == |s| || !IsWhitespace(s[k])
  {
    if |s| == 0 || !IsWhitespace(s[0]) then 0 else 1 + LeadingWhitespace(s[1..])
  }

  /** The end of `s[lo..e]` once its trailing whitespace is cut off. */
  function TrimEnd(s: string, lo: nat, e: nat): (k: nat)
    requires lo <= e <= |s|
    ensures lo <= k <= e
    ensures forall j :: k <= j < e ==> IsWhitespace(s[j])
    ensures k == lo || !IsWhitespace(s[k - 1])
    decreases e
  {
    if e == lo || !IsWhitespace(s[e - 1]) then e else TrimEnd(s, lo, e - 1)
  }

  /** Length of the longest prefix made of decimal digits. */
  function LeadingDigits(s: string): (k: nat)
    ensures k <= |s|
    ensures AllDigits(s[..k])
    ensures k == |s| || !IsDigit(s[k])
  {
    if |s| == 0 || !IsDigit(s[0]) then 0
    else
      var k := 1 + LeadingDigits(s[1..]);
      assert s[..k] == [s[0]] + s[1..][..k - 1];
      k
  }

  /** `s.trim()`: `s` with its leading and trailing whitespace removed. */
  function Trim(s: string): (r: string)
    ensures |r| == 0 <==> AllWhitespace(s)
    ensures |r| == 0 || (!IsWhitespace(r[0]) && !IsWhitespace(r[|r| - 1]))
    ensures NoWhitespace(s) ==> r == s
    ensures TrimmedFrom(s, r)
  {
    var a := LeadingWhitespace(s);
    var e := TrimEnd(s, a, |s|);
    TrimFacts(s, a, e);
    s[a..e]
  }

  lemma TrimFacts(s: string, a: nat, e: nat)
    requires a == LeadingWhitespace(s) && e == TrimEnd(s, a, |s|)
    ensures |s[a..e]| == 0 <==> AllWhitespace(s)
    ensures |s[a..e]| == 0 || (!IsWhitespace(s[a..e][0]) && !IsWhitespace(s[a..e][|s[a..e]| - 1]))
    ensures NoWhitespace(s) ==> s[a..e] == s
    ensures TrimmedFrom(s, s[a..e])
  {
    TrimEmpty(s, a, e);
    TrimKeepsClean(s, a, e);
    TrimCut(s, a, e);
    if a < e {
      assert s[a..e][0] == s[a] && s[a..e][e - a - 1] == s[e - 1];
    }
  }

  /** `r` is `s` with whitespace-only text cut from either end. */
  predicate TrimmedFrom(s: string, r: string) {
    exists k :: 0 <= k <= |s| - |r| && s[k..k + |r|] == r && AllWhitespace(s[..k]) && AllWhitespace(s[k + |r|..])
  }

  /** A trimmed string holds no character the original did not. */
  lemma TrimmedFromInside(s: string, r: string)
    requires TrimmedFrom(s, r)
    ensures forall c :: c in r ==> c in s
  {
    var k :| 0 <= k <= |s| - |r| && s[k..k + |r|] == r && AllWhitespace(s[..k]) && AllWhitespace(s[k + |r|..]);
    forall i | 0 <= i < |r|
      ensures r[i] in s
    {
      assert r[i] == s[k + i];
    }
  }

  lemma TrimEmpty(s: string, a: nat, e: nat)
    requires a == LeadingWhitespace(s) && e == TrimEnd(s, a, |s|)
    ensures a == e <==> AllWhitespace(s)
  {
    if a == e {
      forall j | 0 <= j < |s| ensures IsWhitespace(s[j]) {
        if j < a {
          assert IsWhitespace(s[j]);
        }
      }
    }
  }

  lemma TrimKeepsClean(s: string, a: nat, e: nat)
    requires a == LeadingWhitespace(s) && e == TrimEnd(s, a, |s|)
    ensures NoWhitespace(s) ==> a == 0 && e == |s|
  {
  }

  lemma TrimCut(s: string, a: nat, e: nat)
    requires a == LeadingWhitespace(s) && e == TrimEnd(s, a, |s|)
    ensures TrimmedFrom(s, s[a..e])
  {
    var r := s[a..e];
    assert s[a..a + |r|] == r;
    assert AllWhitespace(s[e..]) by {
      forall j | 0 <= j < |s| - e ensures IsWhitespace(s[e..][j]) {
        assert s[e..][j] == s[e + j];
      }
    }
  }

  /** `parts.join(sep)` for a one-character separator. */
  function Join(parts: seq<string>, sep: char): string
    requires |parts| >= 1
  {
    if |parts| == 1 then parts[0] else parts[0] + [sep] + Join(parts[1..], sep)
  }

  /** `s.split(sep)` for a one-character separator: the pieces between separators, in order.
      The empty string splits into one empty piece. */
  function Split(s: string, sep: char): (parts: seq<string>)
    ensures |parts| >= 1
    ensures forall i :: 0 <= i < |parts| ==> sep !in parts[i]
    ensures Join(parts, sep) == s
  {
    if |s| == 0 then [""]
    else if s[0] == sep then
      var rest := Split(s[1..], sep);
      assert s == [sep] + s[1..];
      [""] + rest
    else
      var rest := Split(s[1..], sep);
      var parts := [[s[0]] + rest[0]] + rest[1..];
      assert parts[1..] == rest[1..];
      assert s == [s[0]] + s[1..];
      parts
  }

  /** Splitting undoes joining when no piece holds the separator. */
  lemma {:induction false} SplitJoin(parts: seq<string>, sep: char)
    requires |parts| >= 1
    requires forall i :: 0 <= i < |parts| ==> sep !in parts[i]
    ensures Split(Join(parts, sep), sep) == parts
  {
    if |parts| == 1 {
      SplitWithoutSeparator(parts[0], sep);
    } else {
      SplitJoin(parts[1..], sep);
      SplitAtFirstSeparator(parts[0], sep, Join(parts[1..], sep));
      assert [parts[0]] + parts[1..] == parts;
    }
  }

  lemma {:induction false} SplitWithoutSeparator(a: string, sep: char)
    requires sep !in a
    ensures Split(a, sep) == [a]
  {
    if |a| > 0 {
      SplitWithoutSeparator(a[1..], sep);
      assert [a[0]] + a[1..] == a;
    }
  }

  lemma {:induction false} SplitAtFirstSeparator(a: string, sep: char, b: string)
    requires sep !in a
    ensures Split(a + [sep] + b, sep) == [a] + Split(b, sep)
  {
    var s := a + [sep] + b;
    if |a| == 0 {
      assert s[1..] == b;
    } else {
      assert s[1..] == a[1..] + [sep] + b;
      SplitAtFirstSeparator(a[1..], sep, b);
      assert [a[0]] + a[1..] == a;
    }
  }

  /** A property held by the separator and by every character of every piece holds of
      every character of the join. */
  lemma {:induction false} JoinCharacters(parts: seq<string>, sep: char, ok: char -> bool)
    requires |parts| >= 1
    requires ok(sep)
    requires forall i, j :: 0 <= i < |parts| && 0 <= j < |parts[i]| ==> ok(parts[i][j])
    ensures forall k :: 0 <= k < |Join(parts, sep)| ==> ok(Join(parts, sep)[k])
  {
    if |parts| > 1 {
      JoinCharacters(parts[1..], sep, ok);
      var j := Join(parts, sep);
      forall k | 0 <= k < |j| ensures ok(j[k]) {
        if k < |parts[0]| {
          assert j[k] == parts[0][k];
        } else if k > |parts[0]| {
          assert j[k] == Join(parts[1..], sep)[k - |parts[0]| - 1];
        }
      }
    }
  }

  /** `parseInt(s, 10)`: skip leading whitespace, read an optional sign, then the longest run
      of decimal digits; NaN when there is none. Whatever follows the digits is ignored. */
  function ParseInt(s: string): (r: NumVal)
    ensures |s| == 0 ==> r == NaN
    ensures |s| > 0 && AllDigits(s) ==> r == Int(DecimalValue(s))
    ensures |s| > 0 && !IsWhitespace(s[0]) && !IsDigit(s[0]) && s[0] != '+' && s[0] != '-' ==> r == NaN
  {
    var t := s[LeadingWhitespace(s)..];
    ReadAllDigits(s);
    if |t| > 0 && t[0] == '-' then Negate(ReadDigits(t[1..]))
    else if |t| > 0 && t[0] == '+' then ReadDigits(t[1..])
    else ReadDigits(t)
  }

  function Negate(v: NumVal): (r: NumVal)
    ensures r.NaN? <==> v.NaN?
    ensures v.Int? ==> r.i == -v.i
  {
    match v
    case NaN => NaN
    case Int(i) => Int(-i)
  }

  /** The run of digits at the start of `u`, as a value; NaN when `u` does not start with one. */
  function ReadDigits(u: string): (r: NumVal)
    ensures r.NaN? <==> |u| == 0 || !IsDigit(u[0])
    ensures r.Int? ==> r.i >= 0
  {
    var k := LeadingDigits(u);
    if k == 0 then NaN else Int(DecimalValue(u[..k]))
  }

  /** A run of digits followed by a non-digit (or nothing) reads as the run's value. */
  lemma ReadDigitsOfConcat(digits: string, rest: string)
    requires |digits| > 0 && AllDigits(digits)
    requires |rest| == 0 || !IsDigit(rest[0])
    ensures ReadDigits(digits + rest) == Int(DecimalValue(digits))
  {
    LeadingDigitsOfConcat(digits, rest);
    assert (digits + rest)[..|digits|] == digits;
  }

  /** Text made of digits only has no leading whitespace and reads as its value. */
  lemma ReadAllDigits(s: string)
    ensures |s| > 0 && AllDigits(s) ==> LeadingWhitespace(s) == 0 && ReadDigits(s) == Int(DecimalValue(s))
  {
    if |s| > 0 && AllDigits(s) {
      assert s + "" == s;
      ReadDigitsOfConcat(s, "");
    }
  }

  /** `parseInt` reads the leading digits and ignores what follows them. */
  lemma ParseIntIgnoresTrailing(digits: string, rest: string)
    requires |digits| > 0 && AllDigits(digits)
    requires |rest| == 0 || !IsDigit(rest[0])
    ensures ParseInt(digits + rest) == Int(DecimalValue(digits))
  {
    var s := digits + rest;
    assert s[0] == digits[0] && LeadingWhitespace(s) == 0;
    assert s[0..] == s;
    ReadDigitsOfConcat(digits, rest);
  }

  /** Whitespace in front of the text is skipped before the digits are read. */
  lemma ParseIntSkipsWhitespace(w: string, t: string)
    requires AllWhitespace(w)
    ensures ParseInt(w + t) == ParseInt(t)
  {
    var l := LeadingWhitespace(t);
    LeadingWhitespaceOfPadded(w, t);
    assert (w + t)[|w| + l..] == t[l..];
  }

  lemma {:induction false} LeadingWhitespaceOfPadded(w: string, t: string)
    requires AllWhitespace(w)
    ensures LeadingWhitespace(w + t) == |w| + LeadingWhitespace(t)
    decreases |w|
  {
    if |w| > 0 {
      assert (w + t)[0] == w[0];
      assert (w + t)[1..] == w[1..] + t;
      LeadingWhitespaceOfPadded(w[1..], t);
    } else {
      assert w + t == t;
    }
  }

  /** The value of an optionally signed run of digits: negated after a minus sign. */
  function SignedValue(sign: string, digits: string): int
    requires AllDigits(digits)
  {
    if sign == "-" then -(DecimalValue(digits) as int) else DecimalValue(digits)
  }

  predicate IsSign(sign: string) {
    sign == "" || sign == "+" || sign == "-"
  }

  /** `parseInt` of whitespace, an optional sign and a run of digits followed by a non-digit
      (or nothing) is the signed value of the run. */
  lemma ParseIntOfPadded(w: string, sign: string, digits: string, rest: string)
    requires AllWhitespace(w) && IsSign(sign)
    requires |digits| > 0 && AllDigits(digits)
    requires |rest| == 0 || !IsDigit(rest[0])
    ensures ParseInt(w + sign + digits + rest) == Int(SignedValue(sign, digits))
  {
    AppendAssociates(w, sign, digits);
    AppendAssociates(w, sign + digits, rest);
    ParseIntSkipsWhitespace(w, sign + digits + rest);
    if sign == "" {
      assert sign + digits == digits;
      ParseIntIgnoresTrailing(digits, rest);
    } else {
      ParseIntAfterSign(sign[0], digits, rest);
      assert sign == [sign[0]];
    }
  }

  lemma ParseIntAfterSign(sign: char, digits: string, rest: string)
    requires sign == '+' || sign == '-'
    requires |digits| > 0 && AllDigits(digits)
    requires |rest| == 0 || !IsDigit(rest[0])
    ensures ParseInt([sign] + digits + rest) == Int(SignedValue([sign], digits))
  {
    var t := [sign] + digits + rest;
    assert t[0] == sign && LeadingWhitespace(t) == 0;
    assert t[0..] == t && t[1..] == digits + rest;
    ReadDigitsOfConcat(digits, rest);
  }

  lemma {:induction false} LeadingDigitsOfConcat(digits: string, rest: string)
    requires AllDigits(digits)
    requires |rest| == 0 || !IsDigit(rest[0])
    ensures LeadingDigits(digits + rest) == |digits|
  {
    if |digits| > 0 {
      LeadingDigitsOfConcat(digits[1..], rest);
      assert (digits + rest)[1..] == digits[1..] + rest;
    }
  }

  /** `Number(s)` for a string: surrounding whitespace ignored, the empty string is 0, an
      optionally signed run of decimal digits is its value, anything else is NaN. */
  function ToNumber(s: string): (r: NumVal)
    ensures AllWhitespace(s) ==> r == Int(0)
    ensures |s| > 0 && AllDigits(s) ==> r == Int(DecimalValue(s))
    ensures r == NaN ==> !AllDigits(Trim(s))
  {
    var t := Trim(s);
    if |t| == 0 then Int(0)
    else
      var negative := t[0] == '-';
      var u := if t[0] == '-' || t[0] == '+' then t[1..] else t;
      if |u| > 0 && AllDigits(u) then Int(if negative then -(DecimalValue(u) as int) else DecimalValue(u))
      else NaN
  }

  /** Surrounding whitespace is cut off exactly when the text between has non-blank ends. */
  lemma TrimOfPadded(w1: string, c: string, w2: string)
    requires AllWhitespace(w1) && AllWhitespace(w2)
    requires |c| > 0 && !IsWhitespace(c[0]) && !IsWhitespace(c[|c| - 1])
    ensures Trim(w1 + c + w2) == c
  {
    var s := w1 + c + w2;
    var e := |w1| + |c|;
    assert s[|w1|] == c[0] && s[e - 1] == c[|c| - 1];
    assert forall i :: 0 <= i < |w1| ==> s[i] == w1[i];
    assert forall i :: e <= i < |s| ==> s[i] == w2[i - e];
    assert s[|w1|..e] == c;
    var r := Trim(s);
    TrimmedFromUnique(s, r, |w1|, e);
  }

  /** Only one non-blank-ended piece is `TrimmedFrom` a text: the one between its leading
      and trailing whitespace. */
  lemma TrimmedFromUnique(s: string, r: string, lo: nat, hi: nat)
    requires lo < hi <= |s| && !IsWhitespace(s[lo]) && !IsWhitespace(s[hi - 1])
    requires forall i :: 0 <= i < lo ==> IsWhitespace(s[i])
    requires forall i :: hi <= i < |s| ==> IsWhitespace(s[i])
    requires TrimmedFrom(s, r) && |r| > 0 && !IsWhitespace(r[0]) && !IsWhitespace(r[|r| - 1])
    ensures r == s[lo..hi]
  {
    var k :| 0 <= k <= |s| - |r| && s[k..k + |r|] == r && AllWhitespace(s[..k]) && AllWhitespace(s[k + |r|..]);
    assert r[0] == s[k] && r[|r| - 1] == s[k + |r| - 1];
    forall i | 0 <= i < k
      ensures IsWhitespace(s[i])
    {
      assert s[..k][i] == s[i];
    }
    forall i | k + |r| <= i < |s|
      ensures IsWhitespace(s[i])
    {
      assert s[k + |r|..][i - k - |r|] == s[i];
    }
    assert k == lo && k + |r| == hi;
  }

  /** `Number` of whitespace, an optional sign, digits and whitespace is the signed value
      of the digits. */
  lemma ToNumberOfPadded(w1: string, sign: string, digits: string, w2: string)
    requires AllWhitespace(w1) && AllWhitespace(w2) && IsSign(sign)
    requires |digits| > 0 && AllDigits(digits)
    ensures ToNumber(w1 + sign + digits + w2) == Int(SignedValue(sign, digits))
  {
    var c := sign + digits;
    AppendAssociates(w1, sign, digits);
    SignedEnds(sign, digits);
    TrimOfPadded(w1, c, w2);
    ToNumberOfTrimmed(w1 + c + w2, sign, digits);
  }

  lemma SignedEnds(sign: string, digits: string)
    requires IsSign(sign) && |digits| > 0 && AllDigits(digits)
    ensures var c := sign + digits; !IsWhitespace(c[0]) && !IsWhitespace(c[|c| - 1])
  {
    var c := sign + digits;
    assert c[0] == if sign == "" then digits[0] else sign[0];
    assert c[|c| - 1] == digits[|digits| - 1];
  }

  lemma ToNumberOfTrimmed(s: string, sign: string, digits: string)
    requires IsSign(sign) && |digits| > 0 && AllDigits(digits)
    requires Trim(s) == sign + digits
    ensures ToNumber(s) == Int(SignedValue(sign, digits))
  {
    var t := sign + digits;
    if sign == "" {
      assert t == digits;
    } else {
      assert t[0] == sign[0] && t[1..] == digits;
    }
  }

  /** `Number(String(i)) === i` and `parseInt(String(i), 10) === i` for every integer. */
  lemma NumberRoundTrip(i: int)
    ensures ToNumber(IntToString(i)) == Int(i)
    ensures ParseInt(IntToString(i)) == Int(i)
  {
    if i < 0 {
      NumberOfNegative(i);
      ParseIntOfNegative(i);
    }
  }

  lemma NumberOfNegative(i: int)
    requires i < 0
    ensures ToNumber(IntToString(i)) == Int(i)
  {
    var s := IntToString(i);
    assert NoWhitespace(s);
  }

  lemma ParseIntOfNegative(i: int)
    requires i < 0
    ensures ParseInt(IntToString(i)) == Int(i)
  {
    var s := IntToString(i);
    assert !IsWhitespace(s[0]);
    assert s[0..] == s;
    ReadAllDigits(s[1..]);
  }

}

=== FILE: metadata.dfy ===
/** The statistics stored beside every Lotofacil combination: the sum, the odd/even and
    low/high splits, the five 5-wide bands over 1..25 and the longest run of consecutive
    numbers, all taken over the numbers in the order they are given. */
module Metadata {
  import opened Wrappers

  /** A class of numbers whose members are counted. */
  datatype Bucket = Odd | Even | Low | High | Band(lo: int, hi: int)

  const Band1To5: Bucket := Band(1, 5)
  const Band6To10: Bucket := Band(6, 10)
  const Band11To15: Bucket := Band(11, 15)
  const Band16To20: Bucket := Band(16, 20)
  const Band21To25: Bucket := Band(21, 25)

  /** JavaScript's `n % 2`: the remainder takes the sign of the dividend. */
  function JsRemainder2(n: int): (r: int)
    ensures r == 0 <==> n % 2 == 0
    ensures r == 1 <==> n > 0 && n % 2 == 1
    ensures r == -1 <==> n < 0 && n % 2 == 1
  {
    if n >= 0 then n % 2 else -((-n) % 2)
  }

  /** Membership as the source's filters test it: `n % 2 === 1`, `n % 2 === 0`, `n <= 12`,
      `n >= 13`, `n >= lo && n <= hi`. A negative odd number is neither odd nor even. */
  predicate InBucket(b: Bucket, n: int) {
    match b
    case Odd => JsRemainder2(n) == 1
    case Even => JsRemainder2(n) == 0
    case Low => n <= 12
    case High => n >= 13
    case Band(lo, hi) => lo <= n <= hi
  }

  /** `numbers.filter(n => InBucket(b, n)).length` */
  function Count(s: seq<int>, b: Bucket): (c: nat)
    ensures c <= |s|
    ensures c == |s| <==> forall i :: 0 <= i < |s| ==> InBucket(b, s[i])
    ensures c == 0 <==> forall i :: 0 <= i < |s| ==> !InBucket(b, s[i])
  {
    if |s| == 0 then 0 else (if InBucket(b, s[0]) then 1 else 0) + Count(s[1..], b)
  }

  /** `numbers.reduce((a, b) => a + b, 0)` */
  function Sum(s: seq<int>): (n: int)
    ensures s == [] ==> n == 0
    ensures |s| == 1 ==> n == s[0]
  {
    if |s| == 0 then 0 else s[0] + Sum(s[1..])
  }

  /** s[lo..hi) is a run: every element is one more than the element before it. */
  ghost predicate IsRun(s: seq<int>, lo: int, hi: int) {
    0 <= lo < hi <= |s| && forall k :: lo < k < hi ==> s[k] == s[k - 1] + 1
  }

  ghost predicate RunAt(s: seq<int>, lo: int, len: int) {
    IsRun(s, lo, lo + len)
  }

  /** m is the length of the longest run in a non-empty s. */
  ghost predicate IsLongestRun(s: seq<int>, m: int) {
    && (exists lo :: RunAt(s, lo, m))
    && (forall lo, hi :: IsRun(s, lo, hi) ==> hi - lo <= m)
  }

  /** The variables of the run-detection loop: `currentSequence`, `maxSequence`, `hasSequence`. */
  datatype RunScan = RunScan(current: nat, longest: nat, found: bool)

  /** What holds of the loop variables once the elements s[..i] have been scanned. */
  ghost predicate ScanInvariant(s: seq<int>, i: int, st: RunScan) {
    && 1 <= i <= |s|
    && 1 <= st.current <= st.longest
    && st.longest <= i
    && IsRun(s, i - st.current, i)
    && (i - st.current == 0 || s[i - st.current] != s[i - st.current - 1] + 1)
    && (exists lo :: lo + st.longest <= i && RunAt(s, lo, st.longest))
    && (forall lo, hi :: IsRun(s, lo, hi) && hi <= i ==> hi - lo <= st.longest)
    && (st.found <==> st.longest >= 3)
  }

  /** One iteration of the loop, at index i. */
  function ScanStep(s: seq<int>, i: nat, st: RunScan): RunScan
    requires 1 <= i < |s|
  {
    if s[i] == s[i - 1] + 1 then
      var current := st.current + 1;
      RunScan(current, Max(st.longest, current), st.found || current >= 3)
    else
      RunScan(1, st.longest, st.found)
  }

  lemma ScanStepKeepsInvariant(s: seq<int>, i: nat, st: RunScan)
    requires i < |s| && ScanInvariant(s, i, st)
    ensures ScanInvariant(s, i + 1, ScanStep(s, i, st))
  {
    if s[i] == s[i - 1] + 1 {
      ScanExtends(s, i, st);
    } else {
      ScanBreaks(s, i, st);
    }
  }

  /** A run that reaches index i starts no earlier than the run the loop is tracking. */
  lemma RunStartsInCurrent(s: seq<int>, i: nat, st: RunScan, lo: int)
    requires i < |s| && ScanInvariant(s, i, st) && IsRun(s, lo, i)
    ensures lo >= i - st.current
  {
    var start := i - st.current;
    assert start == 0 || s[start] != s[start - 1] + 1;
  }

  /** The step `currentSequence++`, `maxSequence = Math.max(...)`. */
  lemma ScanExtends(s: seq<int>, i: nat, st: RunScan)
    requires i < |s| && ScanInvariant(s, i, st) && s[i] == s[i - 1] + 1
    ensures ScanInvariant(s, i + 1, ScanStep(s, i, st))
  {
    var st' := ScanStep(s, i, st);
    var start := i - st.current;
    assert IsRun(s, start, i + 1);
    if st'.longest == st'.current {
      assert RunAt(s, start, st'.longest);
    } else {
      var lo :| lo + st.longest <= i && RunAt(s, lo, st.longest);
      assert lo + st'.longest <= i + 1 && RunAt(s, lo, st'.longest);
    }
    forall lo, hi | IsRun(s, lo, hi) && hi <= i + 1 ensures hi - lo <= st'.longest {
      if hi <= i {
        assert hi - lo <= st.longest;
      } else if lo < i {
        assert IsRun(s, lo, i);
        RunStartsInCurrent(s, i, st, lo);
      }
    }
  }

  /** The step `currentSequence = 1`. */
  lemma ScanBreaks(s: seq<int>, i: nat, st: RunScan)
    requires i < |s| && ScanInvariant(s, i, st) && s[i] != s[i - 1] + 1
    ensures ScanInvariant(s, i + 1, ScanStep(s, i, st))
  {
    var st' := ScanStep(s, i, st);
    assert IsRun(s, i, i + 1);
    var lo :| lo + st.longest <= i && RunAt(s, lo, st.longest);
    assert lo + st'.longest <= i + 1;
    forall lo, hi | IsRun(s, lo, hi) && hi <= i + 1 ensures hi - lo <= st'.longest {
      if hi <= i {
        assert hi - lo <= st.longest;
      }
    }
  }

  /** The loop `for (let i = 1; i < numbers.length; i++)`, from index i to the end. */
  function ScanRuns(s: seq<int>, i: nat, st: RunScan): (r: RunScan)
    requires ScanInvariant(s, i, st)
    ensures ScanInvariant(s, |s|, r)
    decreases |s| - i
  {
    if i == |s| then st
    else
      ScanStepKeepsInvariant(s, i, st);
      ScanRuns(s, i + 1, ScanStep(s, i, st))
  }

  /** The longest run and whether a run of three exists, as the loop leaves them. */
  function DetectRuns(s: seq<int>): (r: RunScan)
    ensures 1 <= r.longest
    ensures |s| == 0 ==> r.longest == 1 && !r.found
    ensures |s| > 0 ==> r.longest <= |s| && IsLongestRun(s, r.longest)
    ensures r.found <==> r.longest >= 3
  {
    var initial := RunScan(1, 1, false);
    if |s| == 0 then initial
    else
      assert IsRun(s, 0, 1) && RunAt(s, 0, 1);
      ScanRuns(s, 1, initial)
  }

  datatype GameMetadata = GameMetadata(
    sum: int,
    odd: nat, even: nat,
    low: nat, high: nat,
    range1To5: nat, range6To10: nat, range11To15: nat, range16To20: nat, range21To25: nat,
    hasSequence: bool,
    maxSequence: nat)

  function BandTotal(m: GameMetadata): nat {
    m.range1To5 + m.range6To10 + m.range11To15 + m.range16To20 + m.range21To25
  }

  /** `calculateGameMetadata(numbers)`, over the numbers in the order given. */
  function CalculateGameMetadata(s: seq<int>): (m: GameMetadata)
    ensures m.sum == Sum(s)
    ensures m.odd == Count(s, Odd) && m.even == Count(s, Even)
    ensures m.low == Count(s, Low) && m.high == Count(s, High)
    ensures m.range1To5 == Count(s, Band1To5) && m.range6To10 == Count(s, Band6To10)
    ensures m.range11To15 == Count(s, Band11To15) && m.range16To20 == Count(s, Band16To20)
    ensures m.range21To25 == Count(s, Band21To25)
    ensures m.low + m.high == |s|
    ensures (forall i :: 0 <= i < |s| ==> s[i] >= 0) ==> m.odd + m.even == |s|
    ensures (forall i :: 0 <= i < |s| ==> 1 <= s[i] <= 25) ==> BandTotal(m) == |s|
    ensures 1 <= m.maxSequence
    ensures |s| == 0 ==> m.maxSequence == 1
    ensures |s| > 0 ==> m.maxSequence <= |s| && IsLongestRun(s, m.maxSequence)
    ensures m.hasSequence <==> m.maxSequence >= 3
    ensures m.hasSequence <==> exists lo :: RunAt(s, lo, 3)
  {
    PartitionLaws(s);
    RunsFoundMeansThreeInARow(s);
    var runs := DetectRuns(s);
    GameMetadata(
      Sum(s),
      Count(s, Odd), Count(s, Even),
      Count(s, Low), Count(s, High),
      Count(s, Band1To5), Count(s, Band6To10), Count(s, Band11To15),
      Count(s, Band16To20), Count(s, Band21To25),
      runs.found,
      runs.longest)
  }

  lemma PartitionLaws(s: seq<int>)
    ensures Count(s, Low) + Count(s, High) == |s|
    ensures (forall i :: 0 <= i < |s| ==> s[i] >= 0) ==> Count(s, Odd) + Count(s, Even) == |s|
    ensures (forall i :: 0 <= i < |s| ==> 1 <= s[i] <= 25) ==>
      Count(s, Band1To5) + Count(s, Band6To10) + Count(s, Band11To15)
      + Count(s, Band16To20) + Count(s, Band21To25) == |s|
  {
    LowHighPartition(s);
    if forall i :: 0 <= i < |s| ==> s[i] >= 0 {
      OddEvenPartition(s);
    }
    if forall i :: 0 <= i < |s| ==> 1 <= s[i] <= 25 {
      BandsPartition(s);
    }
  }

  /** Two buckets that split s between them have counts adding up to |s|. */
  lemma {:induction false} CountComplement(s: seq<int>, b1: Bucket, b2: Bucket)
    requires forall i :: 0 <= i < |s| ==> (InBucket(b1, s[i]) <==> !InBucket(b2, s[i]))
    ensures Count(s, b1) + Count(s, b2) == |s|
  {
    if |s| > 0 {
      CountComplement(s[1..], b1, b2);
    }
  }

  /** Every integer is at most 12 or at least 13. */
  lemma LowHighPartition(s: seq<int>)
    ensures Count(s, Low) + Count(s, High) == |s|
  {
    CountComplement(s, Low, High);
  }

  /** A non-negative integer is odd or even, never both. */
  lemma OddEvenPartition(s: seq<int>)
    requires forall i :: 0 <= i < |s| ==> s[i] >= 0
    ensures Count(s, Odd) + Count(s, Even) == |s|
  {
    CountComplement(s, Odd, Even);
  }

  /** The five bands cover 1..25 without overlap. */
  lemma {:induction false} BandsPartition(s: seq<int>)
    requires forall i :: 0 <= i < |s| ==> 1 <= s[i] <= 25
    ensures Count(s, Band1To5) + Count(s, Band6To10) + Count(s, Band11To15)
          + Count(s, Band16To20) + Count(s, Band21To25) == |s|
  {
    if |s| > 0 {
      BandsPartition(s[1..]);
    }
  }

  /** Fifteen numbers from 1..25 add up to between 15 and 375. */
  lemma {:induction false} SumBounds(s: seq<int>)
    requires forall i :: 0 <= i < |s| ==> 1 <= s[i] <= 25
    ensures |s| <= Sum(s) <= 25 * |s|
  {
    if |s| > 0 {
      SumBounds(s[1..]);
    }
  }

  /** The sum of a concatenation is the sum of the parts. */
  lemma {:induction false} SumAppend(a: seq<int>, b: seq<int>)
    ensures Sum(a + b) == Sum(a) + Sum(b)
  {
    if |a| == 0 {
      assert a + b == b;
    } else {
      assert (a + b)[1..] == a[1..] + b;
      SumAppend(a[1..], b);
    }
  }

  /** Counts of a concatenation add up. */
  lemma {:induction false} CountAppend(a: seq<int>, b: seq<int>, k: Bucket)
    ensures Count(a + b, k) == Count(a, k) + Count(b, k)
  {
    if |a| == 0 {
      assert a + b == b;
    } else {
      assert (a + b)[1..] == a[1..] + b;
      CountAppend(a[1..], b, k);
    }
  }

  /** `hasSequence` means exactly that three adjacent numbers each go up by one. */
  lemma RunsFoundMeansThreeInARow(s: seq<int>)
    ensures DetectRuns(s).found <==> exists lo :: RunAt(s, lo, 3)
  {
    var r := DetectRuns(s);
    if r.found {
      var lo :| RunAt(s, lo, r.longest);
      assert IsRun(s, lo, lo + r.longest);
      assert IsRun(s, lo, lo + 3);
      assert RunAt(s, lo, 3);
    }
    if exists lo :: RunAt(s, lo, 3) {
      var lo :| RunAt(s, lo, 3);
      assert IsRun(s, lo, lo + 3);
      assert IsLongestRun(s, r.longest);
      assert 3 <= r.longest;
    }
  }

  /** The longest run is determined by the sequence: two longest runs have equal length. */
  lemma LongestRunUnique(s: seq<int>, m1: int, m2: int)
    requires IsLongestRun(s, m1) && IsLongestRun(s, m2)
    ensures m1 == m2
  {
    var lo1 :| RunAt(s, lo1, m1);
    var lo2 :| RunAt(s, lo2, m2);
    assert IsRun(s, lo1, lo1 + m1) && IsRun(s, lo2, lo2 + m2);
  }

  lemma RunStartsWithStep(s: seq<int>, lo: int, hi: int)
    requires IsRun(s, lo, hi)
    ensures hi == lo + 1 || s[lo + 1] == s[lo] + 1
  {
  }

  /** No element is one more than the element before it. */
  predicate NoStep(s: seq<int>) {
    forall k :: 0 < k < |s| ==> s[k] != s[k - 1] + 1
  }

  /** When no element is one more than the element before it, the longest run is 1. */
  lemma NoStepMeansNoRun(s: seq<int>)
    requires |s| > 0 && NoStep(s)
    ensures CalculateGameMetadata(s).maxSequence == 1
    ensures !CalculateGameMetadata(s).hasSequence
  {
    var m := DetectRuns(s);
    forall lo, hi | IsRun(s, lo, hi) ensures hi - lo <= 1 {
      RunStartsWithStep(s, lo, hi);
    }
    assert RunAt(s, 0, 1);
    LongestRunUnique(s, m.longest, 1);
  }
}

=== FILE: similar.dfy ===
/** `POST /api/all-games/similar` (app/api/all-games/similar/route.ts): checks only that
    `numbers` is a fifteen-entry array and that `minMatches` (default 11) does not compare
    below 1 or above 15, then forwards both to the `find_similar_games` procedure. */
module Similar {
  import opened Wrappers
  import opened JsText
  import opened Json

  const DefaultMinMatches: real := 11.0

  /** The number a JSON value turns into when compared with `<` or `>` against a number. */
  datatype Numeric = Real(x: real) | NotANumber

  /** The abstract relational comparison's conversion of the operand: `null` and `false`
      are 0, `true` is 1, a string is read with `Number`, an empty array is 0 (it turns into
      the empty string), and any other array or object is NaN. */
  function Coerce(v: JsValue): (n: Numeric)
    ensures v.Num? ==> n == Real(v.x)
    ensures v.Null? || v == Bool(false) || v == Arr([]) || v == Str("") ==> n == Real(0.0)
    ensures v.Undefined? || v.Obj? ==> n.NotANumber?
  {
    match v
    case Undefined => NotANumber
    case Null => Real(0.0)
    case Bool(b) => Real(if b then 1.0 else 0.0)
    case Num(x) => Real(x)
    case Str(s) => (match ToNumber(s) case Int(i) => Real(i as real) case NaN => NotANumber)
    case Arr(items) => if |items| == 0 then Real(0.0) else NotANumber
    case Obj => NotANumber
  }

  /** `const { minMatches = 11 } = body`: the default replaces `undefined` only. */
  function EffectiveMinMatches(v: JsValue): (m: JsValue)
    ensures !m.Undefined?
    ensures v.Undefined? ==> m == Num(DefaultMinMatches)
    ensures !v.Undefined? ==> m == v
  {
    if v.Undefined? then Num(DefaultMinMatches) else v
  }

  /** `minMatches < 1 || minMatches > 15`: both comparisons are false for NaN. */
  function OutOfRange(v: JsValue): (b: bool)
    ensures v.Num? ==> (b <==> v.x < 1.0 || 15.0 < v.x)
    ensures v.Undefined? || v.Obj? ==> !b
    ensures v.Null? || v == Str("") ==> b
  {
    var n := Coerce(v);
    n.Real? && (n.x < 1.0 || n.x > 15.0)
  }

  datatype SimilarError = NotFifteenNumbers | MinMatchesOutOfRange

  /** What `rpc('find_similar_games', …)` answers: an error or the rows (possibly null). */
  datatype RpcAnswer<Row> = RpcError | RpcRows(data: Option<seq<Row>>)

  datatype SimilarResponse<Row> =
    | BadRequest(error: SimilarError)
    | ServerError
    | Found(inputNumbers: JsValue, minMatches: JsValue, totalFound: nat, similarGames: seq<Row>)

  function FindSimilar<Row>(numbers: JsValue, minMatches: JsValue, rpc: RpcAnswer<Row>): (r: SimilarResponse<Row>)
    ensures !numbers.Arr? || |numbers.items| != 15 <==> r == BadRequest(NotFifteenNumbers)
    ensures numbers.Arr? && |numbers.items| == 15 ==>
      (OutOfRange(EffectiveMinMatches(minMatches)) <==> r == BadRequest(MinMatchesOutOfRange))
    ensures r.Found? <==>
      numbers.Arr? && |numbers.items| == 15 && !OutOfRange(EffectiveMinMatches(minMatches)) && rpc.RpcRows?
    ensures r.Found? ==> r.inputNumbers == numbers && r.minMatches == EffectiveMinMatches(minMatches)
    ensures r.Found? ==> r.totalFound == |r.similarGames|
    ensures r.Found? ==> r.similarGames == (if rpc.data.Some? then rpc.data.value else [])
  {
    if !numbers.Arr? || |numbers.items| != 15 then BadRequest(NotFifteenNumbers)
    else
      var m := EffectiveMinMatches(minMatches);
      if OutOfRange(m) then BadRequest(MinMatchesOutOfRange)
      else match rpc
        case RpcError => ServerError
        case RpcRows(data) =>
          var rows := if data.Some? then data.value else [];
          Found(numbers, m, |rows|, rows)
  }

  /** Only the shape of `numbers` is checked: any fifteen entries, repeated, out of range
      or not numbers at all, reach the procedure and are echoed back unchanged. */
  lemma EntriesNotChecked<Row>(items: seq<JsValue>, data: seq<Row>)
    requires |items| == 15
    ensures FindSimilar(Arr(items), Undefined, RpcRows(Some(data)))
      == Found(Arr(items), Num(DefaultMinMatches), |data|, data)
  {
  }

  /** The values `minMatches` may take without a 400: every whole number 1..15, but also
      fractions in that interval and anything that compares as NaN, such as a non-numeric
      string. A `null` or an empty string compares as 0 and is rejected. */
  lemma MinMatchesAccepted(k: int, s: string)
    requires ToNumber(s) == NaN
    ensures 1 <= k <= 15 ==> !OutOfRange(Num(k as real))
    ensures !(1 <= k <= 15) ==> OutOfRange(Num(k as real))
    ensures !OutOfRange(Num(2.5)) && !OutOfRange(Str(s)) && !OutOfRange(Obj)
    ensures OutOfRange(Null) && OutOfRange(Str("")) && OutOfRange(Bool(false)) && !OutOfRange(Bool(true))
  {
  }
}

=== FILE: validate.dfy ===
/** `POST /api/all-games/validate` (app/api/all-games/validate/route.ts): the request's
    `numbers` are checked in a fixed order (array, fifteen entries, integers in 1..25,
    no duplicates), sorted ascending, looked up, and echoed back together with their
    "01-02-..." text form. */
module Validate {
  import opened Wrappers
  import opened JsText
  import opened Json
  import opened GameLine

  datatype ValidationError = NotAnArray | WrongLength | NotAGameNumber | Duplicated

  /** What `.contains('numbers', sorted).limit(1).single()` answers: a row with its id, the
      "no row" error PGRST116, or any other database error. */
  datatype Lookup = Row(id: int) | NoRow | LookupFailed

  /** The answer of the route. A 400 body holds the error message and, after every check but
      the array check, also `valid: false`; `validField` is that key, None when absent. */
  datatype ValidateResponse =
    | BadRequest(error: ValidationError, validField: Option<bool>)
    | ServerError
    | Checked(valid: bool, numbers: seq<int>, numbersStr: string, gameId: Option<int>)

  /** `Number.isInteger(n) && n >= 1 && n <= 25` */
  predicate IsGameValue(v: JsValue) {
    IsInteger(v) && 1.0 <= v.x <= 25.0
  }

  /** The integers behind values that all passed `IsGameValue`. */
  function IntegerValues(vs: seq<JsValue>): (ns: seq<int>)
    requires forall i :: 0 <= i < |vs| ==> IsGameValue(vs[i])
    ensures |ns| == |vs|
    ensures forall i :: 0 <= i < |vs| ==> vs[i] == Num(ns[i] as real)
    ensures forall i :: 0 <= i < |ns| ==> LowestNumber <= ns[i] <= HighestNumber
  {
    if |vs| == 0 then []
    else
      assert IsGameValue(vs[0]);
      [vs[0].x.Floor] + IntegerValues(vs[1..])
  }

  predicate Distinct(s: seq<int>) {
    forall i, j :: 0 <= i < j < |s| ==> s[i] != s[j]
  }

  /** `[...new Set(s)]`: the first occurrence of each value, in order. */
  function Dedup(s: seq<int>): (r: seq<int>)
    ensures |r| <= |s|
    ensures Distinct(r)
    ensures forall x :: x in r <==> x in s
    decreases |s|
  {
    if |s| == 0 then []
    else
      var rest := Dedup(s[..|s| - 1]);
      if s[|s| - 1] in rest then rest else rest + [s[|s| - 1]]
  }

  /** The Set has as many members as the array has entries exactly when nothing repeats. */
  lemma {:induction false} DedupKeepsLengthIffDistinct(s: seq<int>)
    ensures |Dedup(s)| == |s| <==> Distinct(s)
    decreases |s|
  {
    if |s| > 0 {
      var init, x := s[..|s| - 1], s[|s| - 1];
      DedupKeepsLengthIffDistinct(init);
      if x in init {
        var k :| 0 <= k < |init| && init[k] == x;
        assert s[k] == s[|s| - 1];
      } else {
        DistinctExtend(init, x);
        assert s == init + [x];
      }
    }
  }

  lemma DistinctExtend(s: seq<int>, x: int)
    requires x !in s
    ensures Distinct(s + [x]) <==> Distinct(s)
  {
    var t := s + [x];
    if Distinct(s) {
      forall i, j | 0 <= i < j < |t| ensures t[i] != t[j] {
        if j == |s| {
          assert t[i] == s[i];
        }
      }
    } else {
      var i, j :| 0 <= i < j < |s| && s[i] == s[j];
      assert t[i] == t[j];
    }
  }

  predicate Sorted(s: seq<int>) {
    forall i, j :: 0 <= i < j < |s| ==> s[i] <= s[j]
  }

  predicate StrictlyIncreasing(s: seq<int>) {
    forall i, j :: 0 <= i < j < |s| ==> s[i] < s[j]
  }

  function Insert(x: int, s: seq<int>): (r: seq<int>)
    requires Sorted(s)
    ensures Sorted(r)
    ensures multiset(r) == multiset(s) + multiset{x}
    ensures |r| == |s| + 1
    ensures r[0] == x || (|s| > 0 && r[0] == s[0])
  {
    if |s| == 0 || x <= s[0] then [x] + s
    else
      assert s == [s[0]] + s[1..];
      [s[0]] + Insert(x, s[1..])
  }

  /** `[...s].sort((a, b) => a - b)`: the ascending rearrangement of the same values. */
  function SortAscending(s: seq<int>): (r: seq<int>)
    ensures Sorted(r)
    ensures multiset(r) == multiset(s)
    ensures |r| == |s|
  {
    if |s| == 0 then []
    else
      assert s == s[..|s| - 1] + [s[|s| - 1]];
      Insert(s[|s| - 1], SortAscending(s[..|s| - 1]))
  }

  /** No value occurs twice in a sequence without repeats. */
  lemma {:induction false} DistinctMultiplicity(s: seq<int>, v: int)
    requires Distinct(s)
    ensures multiset(s)[v] <= 1
    decreases |s|
  {
    if |s| > 0 {
      assert s == [s[0]] + s[1..];
      DistinctMultiplicity(s[1..], v);
      if s[0] == v {
        assert v !in s[1..];
      }
    }
  }

  /** Two equal entries make their value occur at least twice. */
  lemma TwiceMultiplicity(s: seq<int>, i: int, j: int)
    requires 0 <= i < j < |s| && s[i] == s[j]
    ensures multiset(s)[s[i]] >= 2
  {
    assert s == s[..j] + s[j..];
    assert s[i] in s[..j];
    assert s[j] in s[j..];
  }

  /** Sorting distinct values gives a strictly increasing sequence. */
  lemma SortedDistinctIsStrict(s: seq<int>, r: seq<int>)
    requires Distinct(s) && Sorted(r) && multiset(r) == multiset(s)
    ensures StrictlyIncreasing(r)
  {
    DistinctPermutation(s, r);
  }

  /** A rearrangement of a sequence without repeats has none either. */
  lemma DistinctPermutation(s: seq<int>, r: seq<int>)
    requires Distinct(s) && multiset(r) == multiset(s)
    ensures Distinct(r)
  {
    forall i, j | 0 <= i < j < |r| ensures r[i] != r[j] {
      if r[i] == r[j] {
        TwiceMultiplicity(r, i, j);
        DistinctMultiplicity(s, r[i]);
      }
    }
  }

  /** The head of a sorted sequence is its least value. */
  lemma SortedHeadIsLeast(s: seq<int>, v: int)
    requires Sorted(s) && v in multiset(s)
    ensures |s| > 0 && s[0] <= v
  {
    assert v in s;
    var k :| 0 <= k < |s| && s[k] == v;
  }

  /** A sorted sequence is determined by its values. */
  lemma {:induction false} SortedUnique(a: seq<int>, b: seq<int>)
    requires Sorted(a) && Sorted(b) && multiset(a) == multiset(b)
    ensures a == b
    decreases |a|
  {
    if |a| == 0 {
      assert |b| == |multiset(b)| == 0;
    } else {
      SortedHeadIsLeast(b, a[0]);
      SortedHeadIsLeast(a, b[0]);
      TailsPermute(a, b);
      SortedUnique(a[1..], b[1..]);
      assert a == [a[0]] + a[1..] && b == [b[0]] + b[1..];
    }
  }

  /** Two rearrangements of each other with the same head have rearranged tails. */
  lemma TailsPermute(a: seq<int>, b: seq<int>)
    requires |a| > 0 && |b| > 0 && a[0] == b[0] && multiset(a) == multiset(b)
    ensures multiset(a[1..]) == multiset(b[1..])
  {
    assert a == [a[0]] + a[1..] && b == [b[0]] + b[1..];
    assert multiset(a) == multiset{a[0]} + multiset(a[1..]);
    assert multiset(b) == multiset{a[0]} + multiset(b[1..]);
    forall v ensures multiset(a[1..])[v] == multiset(b[1..])[v] {
      assert multiset(a)[v] == multiset(b)[v];
    }
  }

  /** The sorted answer does not depend on the order the numbers were sent in. */
  lemma SortIgnoresOrder(a: seq<int>, b: seq<int>)
    requires multiset(a) == multiset(b)
    ensures SortAscending(a) == SortAscending(b)
  {
    SortedUnique(SortAscending(a), SortAscending(b));
  }

  /** Rearranging keeps every value in range. */
  lemma PermutationKeepsGame(a: seq<int>, b: seq<int>)
    requires IsGame(a) && multiset(a) == multiset(b)
    ensures IsGame(b)
  {
    assert |b| == |multiset(b)| == |multiset(a)| == |a|;
    forall i | 0 <= i < |b| ensures LowestNumber <= b[i] <= HighestNumber {
      assert b[i] in multiset(a);
    }
  }

  /** `String(n).padStart(2, '0')` */
  function Pad2(n: int): (r: string)
    ensures 2 <= |r|
    ensures 0 <= n ==> AllDigits(r) && ParseInt(r) == Int(n)
    ensures 0 <= n < 100 ==> |r| == 2
  {
    var t := IntToString(n);
    if n < 0 then PadStart(t, 2, '0')
    else
      PadZeroKeepsValue(t, 2);
      PadStart(t, 2, '0')
  }

  /** `sorted.map(n => String(n).padStart(2, '0')).join('-')` */
  function FormatGame(ns: seq<int>): (r: string)
    ensures ns == [] ==> r == ""
    ensures |ns| > 0 && (forall i :: 0 <= i < |ns| ==> 0 <= ns[i]) ==> Split(r, '-') == Pads(ns)
  {
    if |ns| == 0 then ""
    else
      PadsSplit(ns);
      Join(Pads(ns), '-')
  }

  /** The padded pieces of non-negative numbers hold no '-', so splitting their join on
      '-' gives them back. */
  lemma PadsSplit(ns: seq<int>)
    requires |ns| > 0
    ensures (forall i :: 0 <= i < |ns| ==> 0 <= ns[i]) ==> Split(Join(Pads(ns), '-'), '-') == Pads(ns)
  {
    if forall i :: 0 <= i < |ns| ==> 0 <= ns[i] {
      var ps := Pads(ns);
      forall i | 0 <= i < |ps| ensures '-' !in ps[i] {
        DigitsHaveNoDash(ps[i]);
      }
      SplitJoin(ps, '-');
    }
  }

  lemma DigitsHaveNoDash(s: string)
    requires AllDigits(s)
    ensures '-' !in s
  {
    forall k | 0 <= k < |s| ensures s[k] != '-' {
      assert IsDigit(s[k]);
    }
  }

  function Pads(ns: seq<int>): (ps: seq<string>)
    ensures |ps| == |ns|
    ensures forall i :: 0 <= i < |ns| ==> ps[i] == Pad2(ns[i])
  {
    seq(|ns|, i requires 0 <= i < |ns| => Pad2(ns[i]))
  }

  /** The padded text of a number in 1..25 is two digits that `parseInt` reads back. */
  lemma PadParses(n: int)
    requires LowestNumber <= n <= HighestNumber
    ensures |Pad2(n)| == 2 && AllDigits(Pad2(n))
    ensures ParseInt(Pad2(n)) == Int(n)
  {
    PadZeroKeepsValue(IntToString(n), 2);
  }

  predicate FormatChar(c: char) {
    IsDigit(c) || c == '-'
  }

  /** Every padded piece is made of digits only. */
  lemma PadsAreDigits(ns: seq<int>)
    requires IsGame(ns)
    ensures forall i :: 0 <= i < |ns| ==> AllDigits(Pads(ns)[i]) && '-' !in Pads(ns)[i]
  {
    forall i | 0 <= i < |ns| ensures AllDigits(Pads(ns)[i]) && '-' !in Pads(ns)[i] {
      PadParses(ns[i]);
    }
  }

  /** The text form of a game is made of digits and dashes only. */
  lemma FormatCharacters(ns: seq<int>)
    requires IsGame(ns)
    ensures forall k :: 0 <= k < |FormatGame(ns)| ==> FormatChar(FormatGame(ns)[k])
  {
    var ps := Pads(ns);
    PadsAreDigits(ns);
    forall i, j | 0 <= i < |ps| && 0 <= j < |ps[i]| ensures FormatChar(ps[i][j]) {
      assert AllDigits(ps[i]);
    }
    JoinCharacters(ps, '-', FormatChar);
  }

  /** Cleaning leaves the text form of a game as it is. */
  lemma FormatIsClean(ns: seq<int>)
    requires IsGame(ns)
    ensures CleanLine(FormatGame(ns)) == FormatGame(ns)
  {
    FormatCharacters(ns);
    DigitsAndDashesAreClean(FormatGame(ns));
  }

  /** Text made of digits and dashes holds no quote and no whitespace. */
  lemma DigitsAndDashesAreClean(f: string)
    requires forall k :: 0 <= k < |f| ==> FormatChar(f[k])
    ensures CleanLine(f) == f
  {
    assert '"' !in f by {
      forall k | 0 <= k < |f| ensures f[k] != '"' {
        assert FormatChar(f[k]);
      }
    }
    assert NoWhitespace(f) by {
      forall k | 0 <= k < |f| ensures !IsWhitespace(f[k]) {
        assert FormatChar(f[k]);
      }
    }
  }

  /** Splitting the text form of a game on '-' gives back the padded pieces. */
  lemma FormatTokens(ns: seq<int>)
    requires IsGame(ns)
    ensures Tokens(FormatGame(ns)) == Pads(ns)
  {
    FormatIsClean(ns);
    PadsAreDigits(ns);
    SplitJoin(Pads(ns), '-');
  }

  /** Round trip with the importer: the text the endpoint answers for a game is a line that
      `parseGameLine` accepts, giving back the same numbers and the same text. */
  lemma {:induction false} FormatRoundTrip(ns: seq<int>)
    requires IsGame(ns)
    ensures ParseGameLine(FormatGame(ns)).Some?
    ensures ParseGameLine(FormatGame(ns)).value.numbers == ns
    ensures ParseGameLine(FormatGame(ns)).value.numbersStr == FormatGame(ns)
  {
    var f := FormatGame(ns);
    FormatIsClean(ns);
    FormatTokens(ns);
    forall i | 0 <= i < |ns| ensures ParseInt(Tokens(f)[i]) == Int(ns[i]) {
      PadParses(ns[i]);
    }
    ParsesTo(f, ns);
  }

  /** The request's numbers pass all four checks. */
  predicate WellFormed(numbers: JsValue) {
    && numbers.Arr?
    && |numbers.items| == GameSize
    && (forall i :: 0 <= i < |numbers.items| ==> IsGameValue(numbers.items[i]))
    && Distinct(IntegerValues(numbers.items))
  }

  /** The endpoint: the checks in the order the route applies them, then the lookup. */
  function ValidateGame(numbers: JsValue, lookup: Lookup): (r: ValidateResponse)
    ensures !numbers.Arr? ==> r == BadRequest(NotAnArray, None)
    ensures numbers.Arr? && |numbers.items| != GameSize ==> r == BadRequest(WrongLength, Some(false))
    ensures r.BadRequest? <==> !WellFormed(numbers)
    ensures r.BadRequest? ==> (r.validField.None? <==> r.error == NotAnArray)
    ensures r.BadRequest? && r.validField.Some? ==> !r.validField.value
    ensures r == ServerError <==> WellFormed(numbers) && lookup == LookupFailed
    ensures r.Checked? ==> (r.valid <==> lookup.Row?)
    ensures r.Checked? ==> (r.gameId.Some? <==> lookup.Row? && lookup.id != 0)
    ensures r.Checked? ==> IsGame(r.numbers) && StrictlyIncreasing(r.numbers)
    ensures r.Checked? ==> multiset(r.numbers) == multiset(IntegerValues(numbers.items))
    ensures r.Checked? ==> r.numbersStr == FormatGame(r.numbers)
  {
    if !numbers.Arr? then BadRequest(NotAnArray, None)
    else if |numbers.items| != GameSize then BadRequest(WrongLength, Some(false))
    else if exists i | 0 <= i < |numbers.items| :: !IsGameValue(numbers.items[i]) then BadRequest(NotAGameNumber, Some(false))
    else
      var ints := IntegerValues(numbers.items);
      DedupKeepsLengthIffDistinct(ints);
      if |Dedup(ints)| != GameSize then BadRequest(Duplicated, Some(false))
      else
        SortedGame(ints);
        Answer(SortAscending(ints), lookup)
  }

  /** Fifteen distinct numbers in 1..25, sorted, are a strictly increasing game with the
      same numbers. */
  lemma SortedGame(ints: seq<int>)
    requires IsGame(ints) && Distinct(ints)
    ensures var sorted := SortAscending(ints);
      IsGame(sorted) && StrictlyIncreasing(sorted) && multiset(sorted) == multiset(ints)
  {
    var sorted := SortAscending(ints);
    SortedDistinctIsStrict(ints, sorted);
    PermutationKeepsGame(ints, sorted);
  }

  /** The answer once the sorted numbers have been looked up: `valid: !!data`,
      `game_id: data?.id || null`. */
  function Answer(sorted: seq<int>, lookup: Lookup): (r: ValidateResponse)
    ensures r.ServerError? <==> lookup == LookupFailed
    ensures r.Checked? ==> r.numbers == sorted && r.numbersStr == FormatGame(sorted)
    ensures r.Checked? ==> (r.valid <==> lookup.Row?)
    ensures r.Checked? ==> (r.gameId.Some? <==> lookup.Row? && lookup.id != 0)
    ensures !r.BadRequest?
  {
    match lookup
    case LookupFailed => ServerError
    case NoRow => Checked(false, sorted, FormatGame(sorted), None)
    case Row(id) => Checked(true, sorted, FormatGame(sorted), if id == 0 then None else Some(id))
  }

  /** Which 400 answer a fifteen-entry array gets: the range check comes before the
      duplicate check. */
  lemma RejectionOrder(numbers: JsValue, lookup: Lookup)
    requires numbers.Arr? && |numbers.items| == GameSize
    ensures (exists i :: 0 <= i < GameSize && !IsGameValue(numbers.items[i]))
      <==> ValidateGame(numbers, lookup) == BadRequest(NotAGameNumber, Some(false))
    ensures (forall i :: 0 <= i < GameSize ==> IsGameValue(numbers.items[i])) ==>
      (!Distinct(IntegerValues(numbers.items)) <==> ValidateGame(numbers, lookup) == BadRequest(Duplicated, Some(false)))
  {
    if forall i :: 0 <= i < GameSize ==> IsGameValue(numbers.items[i]) {
      DedupKeepsLengthIffDistinct(IntegerValues(numbers.items));
    }
  }

  /** The text the endpoint answers is a line the importer accepts, giving back the same
      numbers and the same `numbers_str`. */
  lemma AnswerMatchesImport(numbers: JsValue, lookup: Lookup)
    ensures var r := ValidateGame(numbers, lookup);
      r.Checked? ==>
        && ParseGameLine(r.numbersStr).Some?
        && ParseGameLine(r.numbersStr).value.numbers == r.numbers
        && ParseGameLine(r.numbersStr).value.numbersStr == r.numbersStr
  {
    var r := ValidateGame(numbers, lookup);
    if r.Checked? {
      assert r.numbersStr == FormatGame(r.numbers) && IsGame(r.numbers);
      FormatRoundTrip(r.numbers);
    }
  }

  /** Counting a value among the integers is counting its JSON number among the entries. */
  lemma {:induction false} IntegerValuesCount(vs: seq<JsValue>, k: int)
    requires forall i :: 0 <= i < |vs| ==> IsGameValue(vs[i])
    ensures multiset(IntegerValues(vs))[k] == multiset(vs)[Num(k as real)]
  {
    if |vs| > 0 {
      assert vs == [vs[0]] + vs[1..];
      IntegerValuesCount(vs[1..], k);
      assert IntegerValues(vs) == [vs[0].x.Floor] + IntegerValues(vs[1..]);
      assert vs[0] == Num(vs[0].x.Floor as real);
    }
  }

  lemma IntegerValuesPermutation(a: seq<JsValue>, b: seq<JsValue>)
    requires forall i :: 0 <= i < |a| ==> IsGameValue(a[i])
    requires multiset(a) == multiset(b)
    ensures forall i :: 0 <= i < |b| ==> IsGameValue(b[i])
    ensures multiset(IntegerValues(a)) == multiset(IntegerValues(b))
  {
    forall i | 0 <= i < |b| ensures IsGameValue(b[i]) {
      assert b[i] in multiset(a);
    }
    forall k ensures multiset(IntegerValues(a))[k] == multiset(IntegerValues(b))[k] {
      IntegerValuesCount(a, k);
      IntegerValuesCount(b, k);
    }
  }

  /** Rearranging the entries of a well-formed request keeps it well formed and keeps
      the sorted numbers. */
  lemma WellFormedPermutation(a: JsValue, b: JsValue)
    requires WellFormed(a) && b.Arr? && multiset(a.items) == multiset(b.items)
    ensures WellFormed(b)
    ensures SortAscending(IntegerValues(a.items)) == SortAscending(IntegerValues(b.items))
  {
    var ia := IntegerValues(a.items);
    assert |b.items| == |multiset(b.items)| == |multiset(a.items)| == |a.items|;
    IntegerValuesPermutation(a.items, b.items);
    var ib := IntegerValues(b.items);
    DistinctPermutation(ia, ib);
    SortIgnoresOrder(ia, ib);
  }

  /** The answer is the same whatever order the numbers were sent in. */
  lemma AnswerIgnoresOrder(a: JsValue, b: JsValue, lookup: Lookup)
    requires WellFormed(a)
    requires b.Arr? && multiset(a.items) == multiset(b.items)
    ensures ValidateGame(b, lookup) == ValidateGame(a, lookup)
  {
    WellFormedPermutation(a, b);
    WellFormedAnswer(a, lookup);
    WellFormedAnswer(b, lookup);
  }

  /** A request that passes the four checks is answered from its sorted numbers. */
  lemma WellFormedAnswer(numbers: JsValue, lookup: Lookup)
    requires WellFormed(numbers)
    ensures ValidateGame(numbers, lookup) == Answer(SortAscending(IntegerValues(numbers.items)), lookup)
  {
    DedupKeepsLengthIffDistinct(IntegerValues(numbers.items));
  }
}

=== FILE: wrappers.dfy ===
/** Small failure-carrying datatypes shared by the other modules. */
module Wrappers {

  /** A value that may be missing: JavaScript's `null`/`undefined` result of a lookup or a parse. */
  datatype Option<+T> = None | Some(value: T)

  function Max(a: int, b: int): (m: int)
    ensures m >= a && m >= b
    ensures m == a || m == b
  {
    if a >= b then a else b
  }

  function Min(a: int, b: int): (m: int)
    ensures m <= a && m <= b
    ensures m == a || m == b
  {
    if a <= b then a else b
  }
}
